=== FILE: README.md ===
# Vehicle inspection lookup, modelled in Dafny

The service receives a licence plate and an inspection sticker number, and
fills them into the public lookup form of the vehicle registry in a
headless browser. It solves the form's captcha by asking an image
recognition model to read the captcha image. It then returns the result
area's HTML and a full-page screenshot.

This project models the core of `index.js`:

- `sanitizer.dfy` (module `Sanitizer`): the clean-up of the model's reply.
  The reply passes through `replace(/[^A-Za-z0-9]/g, '')` before it is
  typed into the captcha box.
- `effects.dfy` (module `Effects`): the outside world. Every awaited call is
  an `Action`. An `Oracle` fixes in advance which actions throw, and with
  which message, and what the page, the download, the environment and the
  model answer. The `Host` class performs actions and records them in a
  ghost log. It also counts the browsers that are open. A `Run` pairs what a
  piece of code returns or throws with the actions it performed.
  Combinators build the `Run` of straight-line `await` code with early
  exits and of `try`/`finally`.
- `captcha.dfy` (module `Captcha`): `handleCaptcha`. `ProbeRun` and
  `CaptchaRun` are the specification functions. The probe loop (at most
  three probes of `#captchaImage`, with a page reload between two of them)
  is the method `FindCaptchaImage`, with its `while` loop and invariants.
  The rest of the handler is `HandleCaptcha`. Each method is proved to
  perform exactly the actions of its specification function and to return
  its result.
- `lookup.dfy` (module `Lookup`): `performVehicleLookup`. It launches a
  browser and opens a page. Then, inside `try`, it navigates, handles the
  captcha, fills the two fields, submits, takes the screenshot
  `result_<Date.now()>.png` and reads `.result`. It closes the browser in
  `finally`.
- `endpoint.dfy` (module `Endpoint`): the `POST /api/vehicle-lookup`
  handler. It contains the 400 guard, the 500 answers, and the choice
  between the plain record and the record with its screenshot attached
  (`returnBase64`).

The lemmas are stated about the specification functions, and the methods
are tied to those functions by their postconditions.

Behaviour of the code worth knowing:

- The lookup runs once; an error is not retried.
- Errors are not told apart: every error of the lookup reaches the
  endpoint, which answers 500.
- The result is returned as raw HTML. No fields are extracted from it.
- The temporary captcha image always uses the same file name,
  `temp_captcha_image.png`.
- The temporary image is deleted only on the success path. A failure after
  it was written leaves it behind (`TempImageDeletedOnlyOnSuccess`).
- `launch` and `newPage` run outside the `try`. So when `newPage` throws,
  the browser that was launched is never closed
  (`PerformVehicleLookup`'s `openBrowsers` postcondition).
- A throw from `browser.close()` in `finally` replaces the outcome of the
  `try` block, including a successful one (`LookupStopsAtFault`).

## Model

| member | source | states |
|---|---|---|
| Sanitizer.Sanitize | index.js:103 | the cleaned text is no longer than the reply and holds ASCII letters and digits only |
| Sanitizer.SanitizeAppend | index.js:103 | the replacement works character by character: cleaning a concatenation is the concatenation of the cleaned parts |
| Sanitizer.SanitizeFixedPoints | index.js:103 | a text is left unchanged if and only if it is made of ASCII letters and digits only |
| Sanitizer.SanitizeIdempotent | index.js:103 | cleaning twice equals cleaning once |
| Sanitizer.SanitizeKeepsAlnum | index.js:103 | each ASCII letter or digit keeps its number of occurrences, and every other character occurs zero times |
| Sanitizer.SanitizeIsSubsequence | index.js:103 | the cleaned text is a subsequence of the reply: the kept characters stay in order |
| Sanitizer.AlnumSubsequenceBound | index.js:103 | no subsequence of the reply made of letters and digits is longer than the cleaned text |
| Sanitizer.SanitizeIsLongestAlnumSubsequence | index.js:103 | the cleaned text is the unique longest letters-and-digits subsequence of the reply (independent reference definition) |
| Captcha.FindCaptchaImage | index.js:37-60 | the `while` loop with its `break`, `retryImage++` and conditional reload, and the throw after it: performs exactly ProbeRun's actions and returns its result |
| Captcha.HandleCaptcha | index.js:34-113 | the whole handler: performs exactly CaptchaRun's actions and returns or throws its result |
| Captcha.ProbeLoopAlternates | index.js:42-56 | the loop performs 1 to 5 actions. It starts with probe 0, and probes and reloads alternate: action k is probe k/2 when k is even, and the reload before probe (k+1)/2 when k is odd |
| Captcha.ProbeLoopCounts | index.js:39-56 | at most MAX_IMAGE_RETRY = 3 probes and at most 2 reloads; the number of probes equals the number of reloads or exceeds it by one |
| Captcha.ProbeLoopEndsOnProbe | index.js:50-55 | when the last action is a reload, that reload threw and the handler fails with its exception |
| Captcha.ProbeLoopOnlyProbes | index.js:42-56 | the loop performs nothing but probes and reloads |
| Captcha.ReloadOnlyAfterMiss | index.js:48-55 | every reload directly follows the previous attempt's probe; that probe completed and missed, and the reload is not past the last attempt |
| Captcha.ProbeLoopStopsAtFirstHit | index.js:43-48 | when the loop yields a URL, that URL is the src found by its last probe, the src is non-empty, and every earlier probe missed |
| Captcha.FirstHitIsUsed | index.js:43-48 | conversely, when the probes and reloads up to the first hit complete, the loop yields that hit's src after exactly 2j+1 actions |
| Captcha.ImageNotFoundIffAllMiss | index.js:42-60 | the "image not found" error is thrown if and only if all three probes complete and miss and both reloads complete |
| Captcha.NotFoundSkipsSolving | index.js:58-60 | after "image not found", only probes and reloads happened: no download, no file, no recognition, no typing |
| Captcha.SolveFollowsPlan | index.js:63-111 | after the URL is known, the handler performs a prefix of: fetch, write file, read file, recognise, click, type the sanitised reply, delete file. If it returns, it performed all of them and returns the sanitised reply. It stops at the first throw and never reports "not found" |
| Captcha.SolveReturnsIffAllComplete | index.js:63-113 | the handler returns if and only if it performed the whole plan with none of the actions throwing |
| Captcha.SolveOwnErrors | index.js:63-75 | a bad download status throws the download error with its status text, if and only if the download completed, and nothing runs after the download; an unset or empty key throws the key error if and only if the download completed with status ok and the file was written |
| Captcha.CaptchaTrace | index.js:34-113 | the handler's actions are the loop's actions followed by a prefix of that plan. It returns the sanitised reply only after the whole plan. It never reports "not found" once an image was found |
| Captcha.CaptchaStopsAtFault | index.js:34-113 | every action but the last one completed; a throwing last action is rethrown unchanged |
| Captcha.CaptchaInPhase | index.js:34-113 | everything the handler does lies between navigation and the plate field |
| Captcha.TypesSanitizedReply | index.js:63-108 | the only text typed is the sanitised reply, which holds ASCII letters and digits only. The only URL downloaded is the one the loop found, and it is non-empty |
| Captcha.TempImageDeletedOnlyOnSuccess | index.js:69-111 | on success the image was written and its deletion is the last action. On failure (when the delete itself did not throw) it is never deleted |
| Captcha.CaptchaSucceedsWhenNothingFails | index.js:34-113 | with no throws, a hit at the first probe, status ok and a key set, the handler returns the sanitised reply |
| Lookup.DecimalRoundTrip | index.js:159 | the decimal numeral of `Date.now()` reads back as the same number |
| Lookup.ScreenshotPathsDistinct | index.js:159 | screenshots named at different times get different names |
| Lookup.ScreenshotPathPlain | index.js:159 | a screenshot name contains no '/' |
| Lookup.TryStopsAtFault | index.js:131-179 | inside `try`, no action after a throwing one runs, and the throw is passed on unchanged |
| Lookup.TryOrdered | index.js:131-173 | the actions inside `try` follow the program's order: navigate, captcha, plate, sticker, submit, screenshot, read result |
| Lookup.FormRunOrdered | index.js:139-173 | the form filling keeps that order for as far as it gets |
| Lookup.TryOutcome | index.js:159-179 | when the `try` block returns, it performed all of the form filling and returns success: true, the screenshot's name and the `.result` HTML or 'Không tìm thấy kết quả' |
| Lookup.BrowserClosedOnceLast | index.js:117-186 | when launch and newPage complete, `finally` closes the browser exactly once, as the last action. When either throws, close is never called |
| Lookup.LookupOrdered | index.js:117-186 | all of the lookup's actions, close included, are in program order |
| Lookup.LookupStopsAtFault | index.js:117-186 | a throw from launch or newPage ends the lookup at once, with that error. Otherwise close is the last action. When close completes, every action before it completed except possibly the last, and the lookup ends with the error of the first action that threw, unchanged (the catch rethrows it). When no action threw, it ends with the record or with one of the captcha handler's own errors (image not found, bad download status, missing key), never with a thrown error. When close throws, its error is the outcome, even after a success |
| Lookup.LookupSuccess | index.js:117-187 | a successful lookup performed exactly launch, newPage, navigate, the captcha's actions, the form's seven actions and close, and returns success: true with the `.result` HTML or the fallback text and `result_<now>.png` |
| Lookup.LookupSucceedsWhenNothingFails | index.js:117-187 | with no throws, a hit at the first probe, status ok and a key set, the lookup succeeds with that record |
| Lookup.FillLookupForm | index.js:138-179 | the form filling, as written: performs exactly FormRun's actions and returns its result |
| Lookup.TryLookup | index.js:131-179 | the `try` block: performs exactly TryRun's actions and returns its result |
| Lookup.PerformVehicleLookup | index.js:117-187 | performs exactly LookupRun's actions and returns its result. The browser is left open exactly when launch completed and then newPage or close threw |
| Endpoint.Basename | index.js:212 | the base name is the longest suffix of the path without '/': it holds no '/', and it is the whole path or is preceded by a '/' |
| Endpoint.BasenameOfPlainName | index.js:212-217 | a name without '/' is its own base name |
| Endpoint.AnswerLookup | index.js:200-228 | the branch after a successful lookup, as written: when returnBase64 is truthy it reads the screenshot and sends the encoded answer or a 500, otherwise it sends the record; it performs exactly AnswerRecord's actions and sends its response |
| Endpoint.HandleVehicleLookup | index.js:190-237 | the handler, as written: performs exactly EndpointRun's actions and sends its response; a browser is left open exactly when the request was complete, the launch completed, and then newPage or close threw |
| Endpoint.IncompleteRequestRejected | index.js:191-195 | the status is 400 if and only if a field is absent, null or empty. Such a request gets the fixed message and performs no action at all, so no lookup is started |
| Endpoint.CompleteRequestRunsLookup | index.js:197-204 | a complete request starts the lookup by launching the browser. The lookup's actions come first, followed by at most the screenshot read |
| Endpoint.SuccessAnswer | index.js:200-229 | after a successful lookup, returnBase64 decides: falsy gives 200 with the record unchanged and no further action. Otherwise the screenshot file is read: a read error gives 500 'Lỗi khi xử lý ảnh' with its message. Else 200 with success, data, filename = the screenshot's name, 'image/png' and '/screenshots/' + name |
| Endpoint.StatusCodes | index.js:190-237 | the status is always 200, 400 or 500. It is 200 if and only if the request is complete, the lookup succeeds and, when asked for, the screenshot read succeeds |
| Endpoint.EndToEndSuccess | index.js:190-237 | with no throws, a hit at the first probe, status ok and a key set, a complete request gets 200 with the `.result` data and the screenshot `result_<now>.png` |

## Left out

- Browser, page, network, file system and recognition model: these are not executed. They are reduced to actions that may throw (with a message) and to the answers fixed by an `Oracle`. The puppeteer launch options, the page URL, `waitUntil`, the Gemini model name, the safety settings and the prompt are not modelled.
- Timers: the `setTimeout` waits of 1, 2 and 3 seconds change no state and are not modelled.
- `deleteFileAfterDelay` (index.js:16-28): it is started without being awaited and runs after the response, so its deletion of the screenshot is not modelled. Concurrency between requests is not modelled either.
- Image contents: the downloaded bytes, the base64 encoding of the captcha image and of the screenshot, and the content-type fallback `'image/png'` for the captcha are not modelled. `EncodedBody` omits the `data` field of `screenshot` for this reason.
- The `console.log` and `console.error` output is not modelled.
- Effects.Host.Close: what a throwing `browser.close()` leaves behind is not known from the source. The model assumes the browser stays open, so it counts as left open in `PerformVehicleLookup` and `HandleVehicleLookup`.
- `fetch` and `response.arrayBuffer()` (index.js:63 and 68) are one action, `FetchImage`. A throw from reading the body is modelled as a throw of that action, before the `ok` check; as the source reads the body only when `ok` holds, the outcome is the same: that error, with nothing run after it.
- The Express plumbing (`express.json`, routing, the static `/screenshots` route at index.js:240, `app.listen`) is not modelled. `res.json` is taken not to throw.
- Request values: `licensePlate` and `stickerNumber` are modelled as strings or absent/null. A number, the boolean `true`, an array or an object in those fields would pass the guard and reach `page.type`; such values are not modelled. `returnBase64` is modelled with full JSON truthiness, except that numbers are integers (no NaN or fractions).
- Endpoint.Basename: does not strip trailing separators or handle Windows separators as Node's `path.basename` does. The only names it is applied to contain no separator (`ScreenshotPathPlain`).
- The recognition model's reply is an arbitrary string fixed by the oracle. Whether the captcha text is right is decided by the remote page, which the model does not see.

=== FILE: captcha.dfy ===
/** `handleCaptcha`: find the captcha image (probing up to three times and
    reloading the page between misses), download it, store it in a
    temporary file, have the recognition model read it, clean the reply up
    and type it into the captcha box, then delete the temporary file. */
module Captcha {
  import opened Wrappers
  import opened Sanitizer
  import opened Effects

  /** MAX_IMAGE_RETRY */
  const MaxImageRetry: nat := 3

  /** `if (imageUrl)`: a missing element (null) and an empty src are both
      misses. */
  predicate IsHit(src: Option<string>) {
    src.Some? && src.value != ""
  }

  /** `if (!apiKey)`: an unset and an empty variable are both missing. */
  predicate HasApiKey(key: Option<string>) {
    key.Some? && key.value != ""
  }

  /** The probe loop from the iteration with `retryImage == i` on, followed
      by the check after the loop. */
  function ProbeRun(o: Oracle, i: nat): Run<string>
    requires i < MaxImageRetry
    decreases MaxImageRetry - i
  {
    var src := CaptchaSrc(o, i);
    Step(o, ProbeCaptcha(i),
      if IsHit(src) then Done(src.value)
      else if i + 1 < MaxImageRetry then Step(o, Reload(i + 1), ProbeRun(o, i + 1))
      else Check(true, CaptchaImageNotFound, Done("")))
  }

  /** Everything `handleCaptcha` does once the image's URL is known:
      download it, save it to the temporary file, check the API key, then
      recognise and type. */
  function SolveRun(o: Oracle, url: string): Run<string> {
    Step(o, FetchImage(url),
    Check(!o.imageResponse.ok, ImageDownloadFailed(o.imageResponse.statusText),
    Step(o, WriteImage,
    Check(!HasApiKey(o.apiKey), ApiKeyMissing,
    RecognizeRun(o, Sanitize(o.reply))))))
  }

  /** Read the temporary file, ask the model, type its sanitised reply
      `text` into the captcha box and delete the file. */
  function RecognizePlan(text: string): seq<Action> {
    [ReadImage, Recognize, Click(CaptchaBox), Type(CaptchaBox, text), DeleteImage]
  }

  function RecognizeRun(o: Oracle, text: string): Run<string> {
    RunPlan(o, RecognizePlan(text), text)
  }

  /** RecognizeRun written out action by action. */
  lemma RecognizeRunUnfolded(o: Oracle, text: string)
    ensures RecognizeRun(o, text) ==
      Step(o, ReadImage, Step(o, Recognize, Step(o, Click(CaptchaBox),
      Step(o, Type(CaptchaBox, text), Step(o, DeleteImage, Done(text))))))
  {
    var p0 := RecognizePlan(text);
    var p1 := [Recognize, Click(CaptchaBox), Type(CaptchaBox, text), DeleteImage];
    var p2 := [Click(CaptchaBox), Type(CaptchaBox, text), DeleteImage];
    var p3 := [Type(CaptchaBox, text), DeleteImage];
    var p4 := [DeleteImage];
    assert p0[1..] == p1 && p1[1..] == p2 && p2[1..] == p3 && p3[1..] == p4 && p4[1..] == [];
    assert RunPlan(o, p4, text) == Step(o, DeleteImage, Done(text));
    assert RunPlan(o, p3, text) == Step(o, Type(CaptchaBox, text), RunPlan(o, p4, text));
    assert RunPlan(o, p2, text) == Step(o, Click(CaptchaBox), RunPlan(o, p3, text));
    assert RunPlan(o, p1, text) == Step(o, Recognize, RunPlan(o, p2, text));
  }

  function CaptchaRun(o: Oracle): Run<string> {
    var probe := ProbeRun(o, 0);
    match probe.result
    case Failure(_) => probe
    case Success(url) =>
      var rest := SolveRun(o, url);
      Run(rest.result, probe.steps + rest.steps)
  }

  /** The k-th action of the loop when it starts at iteration `i`: probes
      at even positions, the reload before the next probe at odd ones. */
  function LoopAction(i: nat, k: nat): Action {
    if k % 2 == 0 then ProbeCaptcha(i + k / 2) else Reload(i + (k + 1) / 2)
  }

  lemma LoopActionShift(i: nat, k: nat)
    requires k >= 2
    ensures LoopAction(i + 1, k - 2) == LoopAction(i, k)
  {
    assert (k - 2) % 2 == k % 2 && (k - 2) / 2 + 1 == k / 2 && (k - 1) / 2 + 1 == (k + 1) / 2;
  }

  /** From iteration `i` on, the probes (at `i` and after) all complete
      and all miss, and so do the reloads between them. */
  ghost predicate AllMissFrom(o: Oracle, i: nat) {
    forall j :: i <= j < MaxImageRetry ==>
      ProbeCaptcha(j) !in o.faults && !IsHit(CaptchaSrc(o, j)) && (j > i ==> Reload(j) !in o.faults)
  }

  lemma {:induction false} ProbeShapeFrom(o: Oracle, i: nat)
    requires i < MaxImageRetry
    ensures var s := ProbeRun(o, i).steps;
      1 <= |s| <= 2 * (MaxImageRetry - i) - 1 && forall k :: 0 <= k < |s| ==> s[k] == LoopAction(i, k)
    decreases MaxImageRetry - i
  {
    var s := ProbeRun(o, i).steps;
    if ProbeCaptcha(i) !in o.faults && !IsHit(CaptchaSrc(o, i)) && i + 1 < MaxImageRetry &&
       Reload(i + 1) !in o.faults
    {
      ProbeShapeFrom(o, i + 1);
      var rest := ProbeRun(o, i + 1).steps;
      assert s == [ProbeCaptcha(i), Reload(i + 1)] + rest;
      forall k | 2 <= k < |s| ensures s[k] == LoopAction(i, k) {
        assert s[k] == rest[k - 2];
        LoopActionShift(i, k);
      }
    }
  }

  lemma {:induction false} ProbeOutcomeFrom(o: Oracle, i: nat)
    requires i < MaxImageRetry
    ensures var r := ProbeRun(o, i);
      && (forall m :: i <= m < i + |r.steps| / 2 ==> !IsHit(CaptchaSrc(o, m)))
      && (r.result.Success? ==>
            IsHit(CaptchaSrc(o, i + |r.steps| / 2)) && r.result.value == CaptchaSrc(o, i + |r.steps| / 2).value)
      && (r.result.Failure? ==> r.result.error.Thrown? || r.result.error == CaptchaImageNotFound)
    decreases MaxImageRetry - i
  {
    if ProbeCaptcha(i) !in o.faults && !IsHit(CaptchaSrc(o, i)) && i + 1 < MaxImageRetry &&
       Reload(i + 1) !in o.faults
    {
      ProbeOutcomeFrom(o, i + 1);
      var rest := ProbeRun(o, i + 1);
      assert ProbeRun(o, i).steps == [ProbeCaptcha(i), Reload(i + 1)] + rest.steps;
    }
  }

  lemma {:induction false} ProbeStopsFrom(o: Oracle, i: nat)
    requires i < MaxImageRetry
    ensures StopsAtFault(o, ProbeRun(o, i))
    decreases MaxImageRetry - i
  {
    var src := CaptchaSrc(o, i);
    if IsHit(src) {
      StepStops(o, ProbeCaptcha(i), Done(src.value));
    } else if i + 1 < MaxImageRetry {
      ProbeStopsFrom(o, i + 1);
      StepStops(o, Reload(i + 1), ProbeRun(o, i + 1));
      StepStops(o, ProbeCaptcha(i), Step(o, Reload(i + 1), ProbeRun(o, i + 1)));
    } else {
      StepStops(o, ProbeCaptcha(i), Check(true, CaptchaImageNotFound, Done("")));
    }
  }

  lemma {:induction false} NotFoundFrom(o: Oracle, i: nat)
    requires i < MaxImageRetry
    ensures ProbeRun(o, i).result == Failure(CaptchaImageNotFound) <==> AllMissFrom(o, i)
    decreases MaxImageRetry - i
  {
    if i + 1 < MaxImageRetry {
      NotFoundFrom(o, i + 1);
      if AllMissFrom(o, i) {
        assert Reload(i + 1) !in o.faults && !IsHit(CaptchaSrc(o, i)) && ProbeCaptcha(i) !in o.faults;
        assert AllMissFrom(o, i + 1);
      }
      if ProbeRun(o, i).result == Failure(CaptchaImageNotFound) {
        assert ProbeCaptcha(i) !in o.faults && !IsHit(CaptchaSrc(o, i)) && Reload(i + 1) !in o.faults;
        assert AllMissFrom(o, i + 1);
      }
    }
  }

  lemma {:induction false} FirstHitFrom(o: Oracle, i: nat, j: nat)
    requires i <= j < MaxImageRetry && IsHit(CaptchaSrc(o, j))
    requires forall m :: i <= m < j ==> !IsHit(CaptchaSrc(o, m))
    requires forall m :: i <= m <= j ==> ProbeCaptcha(m) !in o.faults
    requires forall m :: i < m <= j ==> Reload(m) !in o.faults
    ensures ProbeRun(o, i).result == Success(CaptchaSrc(o, j).value)
    ensures |ProbeRun(o, i).steps| == 2 * (j - i) + 1
    decreases j - i
  {
    if i < j {
      assert ProbeCaptcha(i) !in o.faults && !IsHit(CaptchaSrc(o, i)) && Reload(i + 1) !in o.faults;
      FirstHitFrom(o, i + 1, j);
    } else {
      assert ProbeCaptcha(i) !in o.faults;
    }
  }

  /** Probes and reloads alternate, starting with the first probe: the k-th
      action is probe k/2 when k is even and the reload before probe
      (k+1)/2 when k is odd. At most five actions are performed. */
  lemma ProbeLoopAlternates(o: Oracle)
    ensures var s := ProbeRun(o, 0).steps;
      && 1 <= |s| <= 2 * MaxImageRetry - 1
      && s[0] == ProbeCaptcha(0)
      && (forall k :: 0 <= k < |s| ==> s[k] == LoopAction(0, k))
  {
    ProbeShapeFrom(o, 0);
  }

  /** The loop ends on a probe, unless the reload before the next probe
      threw; the lookup then fails with that reload's exception. */
  lemma ProbeLoopEndsOnProbe(o: Oracle)
    ensures var s := ProbeRun(o, 0).steps;
      Last(s).Reload? ==>
        Last(s) in o.faults && ProbeRun(o, 0).result == Failure(Thrown(Last(s), o.faults[Last(s)]))
  {
    ProbeEndsFrom(o, 0);
  }

  lemma {:induction false} ProbeEndsFrom(o: Oracle, i: nat)
    requires i < MaxImageRetry
    ensures var r := ProbeRun(o, i);
      r.steps != [] &&
      (Last(r.steps).Reload? ==>
        Last(r.steps) in o.faults && r.result == Failure(Thrown(Last(r.steps), o.faults[Last(r.steps)])))
    decreases MaxImageRetry - i
  {
    ProbeRunCases(o, i);
    if ProbeCaptcha(i) !in o.faults && !IsHit(CaptchaSrc(o, i)) && i + 1 < MaxImageRetry &&
       Reload(i + 1) !in o.faults
    {
      ProbeEndsFrom(o, i + 1);
      var rest := ProbeRun(o, i + 1);
      assert Last(ProbeRun(o, i).steps) == Last(rest.steps);
    }
  }

  /** The loop performs nothing but probes and reloads. */
  lemma ProbeLoopOnlyProbes(o: Oracle)
    ensures forall a :: a in ProbeRun(o, 0).steps ==> a.ProbeCaptcha? || a.Reload?
  {
    ProbeShapeFrom(o, 0);
    var s := ProbeRun(o, 0).steps;
    forall a | a in s ensures a.ProbeCaptcha? || a.Reload? {
      var k :| 0 <= k < |s| && s[k] == a;
      assert s[k] == LoopAction(0, k);
    }
  }

  function ProbeCount(s: seq<Action>): nat {
    if s == [] then 0 else (if s[0].ProbeCaptcha? then 1 else 0) + ProbeCount(s[1..])
  }

  function ReloadCount(s: seq<Action>): nat {
    if s == [] then 0 else (if s[0].Reload? then 1 else 0) + ReloadCount(s[1..])
  }

  lemma CountsPrepend(a: Action, s: seq<Action>)
    ensures ProbeCount([a] + s) == (if a.ProbeCaptcha? then 1 else 0) + ProbeCount(s)
    ensures ReloadCount([a] + s) == (if a.Reload? then 1 else 0) + ReloadCount(s)
  {
    assert ([a] + s)[1..] == s;
  }

  lemma {:induction false} ProbeCountsFrom(o: Oracle, i: nat)
    requires i < MaxImageRetry
    ensures var s := ProbeRun(o, i).steps;
      && 1 <= ProbeCount(s) <= MaxImageRetry - i
      && ReloadCount(s) <= MaxImageRetry - i - 1
      && ReloadCount(s) <= ProbeCount(s) <= ReloadCount(s) + 1
    decreases MaxImageRetry - i
  {
    var s := ProbeRun(o, i).steps;
    CountsPrepend(ProbeCaptcha(i), []);
    if ProbeCaptcha(i) !in o.faults && !IsHit(CaptchaSrc(o, i)) && i + 1 < MaxImageRetry {
      var rest := ProbeRun(o, i + 1).steps;
      if Reload(i + 1) !in o.faults {
        ProbeCountsFrom(o, i + 1);
        assert s == [ProbeCaptcha(i)] + ([Reload(i + 1)] + rest);
        CountsPrepend(Reload(i + 1), rest);
        CountsPrepend(ProbeCaptcha(i), [Reload(i + 1)] + rest);
      } else {
        assert s == [ProbeCaptcha(i)] + [Reload(i + 1)];
        CountsPrepend(Reload(i + 1), []);
        CountsPrepend(ProbeCaptcha(i), [Reload(i + 1)]);
      }
    } else {
      assert s == [ProbeCaptcha(i)] + [];
    }
  }

  /** The loop probes at most MAX_IMAGE_RETRY = 3 times and reloads at most
      twice, and never reloads twice without a probe in between. */
  lemma ProbeLoopCounts(o: Oracle)
    ensures var s := ProbeRun(o, 0).steps;
      && 1 <= ProbeCount(s) <= MaxImageRetry
      && ReloadCount(s) <= MaxImageRetry - 1
      && ReloadCount(s) <= ProbeCount(s) <= ReloadCount(s) + 1
  {
    ProbeCountsFrom(o, 0);
  }

  /** A reload ends neither the loop nor its budget: it is preceded by the
      probe of the attempt before it, and that attempt is among the probes
      of a run of `n` actions that did not end there. */
  lemma LoopActionReload(i: nat, k: nat, n: nat)
    requires k < n <= 2 * (MaxImageRetry - i) - 1 && LoopAction(i, k).Reload?
    ensures k >= 1 && LoopAction(i, k - 1) == ProbeCaptcha(LoopAction(i, k).attempt - 1)
    ensures i < LoopAction(i, k).attempt < MaxImageRetry
    ensures LoopAction(i, k).attempt - 1 < i + n / 2
  {
    assert k % 2 == 1;
    assert (k - 1) % 2 == 0 && (k - 1) / 2 + 1 == (k + 1) / 2;
    assert (k + 1) / 2 <= n / 2;
  }

  /** The action at `k` is a reload that directly follows the probe of the
      attempt before it, a probe that completed and missed, and is not the
      last attempt allowed. */
  ghost predicate ReloadAfterMiss(o: Oracle, s: seq<Action>, k: nat)
    requires k < |s| && s[k].Reload?
  {
    && 0 < k && 1 <= s[k].attempt < MaxImageRetry
    && s[k - 1] == ProbeCaptcha(s[k].attempt - 1)
    && s[k - 1] !in o.faults
    && !IsHit(CaptchaSrc(o, s[k].attempt - 1))
  }

  /** A reload only follows a probe that completed, missed and was not the
      last one allowed. */
  lemma ReloadOnlyAfterMiss(o: Oracle)
    ensures var s := ProbeRun(o, 0).steps;
      forall k :: 0 <= k < |s| && s[k].Reload? ==> ReloadAfterMiss(o, s, k)
  {
    ProbeShapeFrom(o, 0);
    ProbeOutcomeFrom(o, 0);
    ProbeStopsFrom(o, 0);
    var s := ProbeRun(o, 0).steps;
    forall k | 0 <= k < |s| && s[k].Reload? ensures ReloadAfterMiss(o, s, k) {
      assert s[k] == LoopAction(0, k);
      LoopActionReload(0, k, |s|);
      assert s[k - 1] == LoopAction(0, k - 1);
    }
  }

  /** The loop stops at the first probe that finds a non-empty src and
      hands that src on; every earlier probe missed. */
  lemma ProbeLoopStopsAtFirstHit(o: Oracle)
    ensures var r := ProbeRun(o, 0);
      r.result.Success? ==>
        var j := |r.steps| / 2;
        && Last(r.steps) == ProbeCaptcha(j) && j < MaxImageRetry
        && IsHit(CaptchaSrc(o, j)) && r.result.value == CaptchaSrc(o, j).value
        && (forall m :: 0 <= m < j ==> !IsHit(CaptchaSrc(o, m)))
  {
    ProbeShapeFrom(o, 0);
    ProbeOutcomeFrom(o, 0);
    ProbeEndsFrom(o, 0);
    var r := ProbeRun(o, 0);
    if r.result.Success? {
      var k := |r.steps| - 1;
      assert r.steps[k] == LoopAction(0, k);
      assert k % 2 == 0 && k / 2 == |r.steps| / 2;
    }
  }

  /** Conversely, when the probes and reloads up to the first hit complete,
      that hit's src is the URL the loop hands on. */
  lemma FirstHitIsUsed(o: Oracle, j: nat)
    requires j < MaxImageRetry && IsHit(CaptchaSrc(o, j))
    requires forall m :: 0 <= m < j ==> !IsHit(CaptchaSrc(o, m))
    requires forall m :: 0 <= m <= j ==> ProbeCaptcha(m) !in o.faults
    requires forall m :: 0 < m <= j ==> Reload(m) !in o.faults
    ensures ProbeRun(o, 0).result == Success(CaptchaSrc(o, j).value)
    ensures |ProbeRun(o, 0).steps| == 2 * j + 1
  {
    FirstHitFrom(o, 0, j);
  }

  /** `handleCaptcha` throws "image not found" exactly when the three
      probes all complete and all miss, the reloads between them completing
      too. */
  lemma ImageNotFoundIffAllMiss(o: Oracle)
    ensures ProbeRun(o, 0).result == Failure(CaptchaImageNotFound) <==>
      && (forall j :: 0 <= j < MaxImageRetry ==> ProbeCaptcha(j) !in o.faults && !IsHit(CaptchaSrc(o, j)))
      && (forall j :: 0 < j < MaxImageRetry ==> Reload(j) !in o.faults)
  {
    NotFoundFrom(o, 0);
  }

  /** The captcha handler's actions once the URL is known, when none throws
      and every check passes. */
  function SolvePlan(url: string, text: string): seq<Action> {
    [FetchImage(url), WriteImage] + RecognizePlan(text)
  }

  lemma SolveFollowsPlan(o: Oracle, url: string)
    ensures Follows(SolveRun(o, url), SolvePlan(url, Sanitize(o.reply)))
    ensures StopsAtFault(o, SolveRun(o, url))
    ensures SolveRun(o, url).result.Success? ==> SolveRun(o, url).result.value == Sanitize(o.reply)
    ensures SolveRun(o, url).result.Failure? ==> SolveRun(o, url).result.error != CaptchaImageNotFound
  {
    var text := Sanitize(o.reply);
    var r4 := RecognizeRun(o, text);
    var r3 := Check(!HasApiKey(o.apiKey), ApiKeyMissing, r4);
    var r2 := Step(o, WriteImage, r3);
    var r1 := Check(!o.imageResponse.ok, ImageDownloadFailed(o.imageResponse.statusText), r2);
    var plan := RecognizePlan(text);
    RunPlanFollows(o, RecognizePlan(text), text);
    CheckFollows(!HasApiKey(o.apiKey), ApiKeyMissing, r4, plan);
    StepFollows(o, WriteImage, r3, plan);
    CheckFollows(!o.imageResponse.ok, ImageDownloadFailed(o.imageResponse.statusText), r2, [WriteImage] + plan);
    StepFollows(o, FetchImage(url), r1, [WriteImage] + plan);
    assert [FetchImage(url)] + ([WriteImage] + plan) == SolvePlan(url, text);
    CheckStops(o, !HasApiKey(o.apiKey), ApiKeyMissing, r4);
    StepStops(o, WriteImage, r3);
    CheckStops(o, !o.imageResponse.ok, ImageDownloadFailed(o.imageResponse.statusText), r2);
    StepStops(o, FetchImage(url), r1);
  }

  /** After the URL is known, the handler returns exactly when it performed
      the whole plan and none of its actions threw. */
  lemma SolveReturnsIffAllComplete(o: Oracle, url: string)
    ensures var r := SolveRun(o, url);
      (r.steps == SolvePlan(url, Sanitize(o.reply)) && forall k :: 0 <= k < |r.steps| ==> r.steps[k] !in o.faults)
        <==> r.result.Success?
  {
    SolveFollowsPlan(o, url);
  }

  /** The handler's own two errors: a download that completes with a bad
      status throws ImageDownloadFailed with its status text, right after
      the download; an unset or empty API key, once the image is written,
      throws ApiKeyMissing. Neither is thrown in any other case. */
  lemma SolveOwnErrors(o: Oracle, url: string)
    ensures SolveRun(o, url).result == Failure(ImageDownloadFailed(o.imageResponse.statusText)) <==>
      FetchImage(url) !in o.faults && !o.imageResponse.ok
    ensures SolveRun(o, url).result == Failure(ApiKeyMissing) <==>
      FetchImage(url) !in o.faults && o.imageResponse.ok && WriteImage !in o.faults && !HasApiKey(o.apiKey)
    ensures FetchImage(url) !in o.faults && !o.imageResponse.ok ==> SolveRun(o, url).steps == [FetchImage(url)]
  {
    RunPlanFollows(o, RecognizePlan(Sanitize(o.reply)), Sanitize(o.reply));
  }

  /** The run of `handleCaptcha`: the probe loop's actions, then, once an
      image is found, a prefix of SolvePlan; all of it exactly when the
      handler returns, and then it returns the sanitised reply. */
  lemma CaptchaTrace(o: Oracle)
    ensures var r := CaptchaRun(o); var probe := ProbeRun(o, 0);
      && (probe.result.Failure? ==> r == probe)
      && (probe.result.Success? ==>
            var plan := SolvePlan(probe.result.value, Sanitize(o.reply));
            var n := |r.steps| - |probe.steps|;
            && |probe.steps| <= |r.steps| <= |probe.steps| + |plan|
            && r.steps == probe.steps + plan[..n]
            && (r.result.Success? ==> n == |plan| && r.result.value == Sanitize(o.reply))
            && (r.result.Failure? && !r.result.error.Thrown? ==> n < |plan|)
            && (r.result.Failure? ==> r.result.error != CaptchaImageNotFound))
  {
    var probe := ProbeRun(o, 0);
    if probe.result.Success? {
      SolveFollowsPlan(o, probe.result.value);
    }
  }

  /** `handleCaptcha` stops at the first action that throws and rethrows
      its exception. */
  lemma CaptchaStopsAtFault(o: Oracle)
    ensures StopsAtFault(o, CaptchaRun(o))
  {
    var probe := ProbeRun(o, 0);
    ProbeStopsFrom(o, 0);
    if probe.result.Success? {
      var solve := SolveRun(o, probe.result.value);
      SolveFollowsPlan(o, probe.result.value);
      ThenStops(o, probe, solve);
      assert CaptchaRun(o) == Then(probe, solve);
    }
  }

  /** Everything `handleCaptcha` does lies between navigating to the form
      and filling its plate field. */
  lemma CaptchaInPhase(o: Oracle)
    ensures forall a :: a in CaptchaRun(o).steps ==> Phase(a) == 3
    ensures Ordered(CaptchaRun(o).steps, 3, 3)
  {
    CaptchaTrace(o);
    ProbeLoopOnlyProbes(o);
    var probe := ProbeRun(o, 0);
    var r := CaptchaRun(o);
    if probe.result.Success? {
      var plan := SolvePlan(probe.result.value, Sanitize(o.reply));
      var n := |r.steps| - |probe.steps|;
      SolvePlanInPhase(probe.result.value, Sanitize(o.reply), n);
      SamePhaseAppend(probe.steps, plan[..n], 3);
    }
    SamePhaseOrdered(r.steps, 3);
  }

  lemma SolvePlanInPhase(url: string, text: string, n: nat)
    requires n <= |SolvePlan(url, text)|
    ensures forall a :: a in SolvePlan(url, text)[..n] ==> Phase(a) == 3
  {
    var plan := SolvePlan(url, text);
    assert forall k :: 0 <= k < |plan| ==> Phase(plan[k]) == 3;
    assert forall a :: a in plan[..n] ==> a in plan;
  }

  lemma SamePhaseAppend(a: seq<Action>, b: seq<Action>, p: nat)
    requires forall x :: x in a ==> Phase(x) == p
    requires forall x :: x in b ==> Phase(x) == p
    ensures forall x :: x in a + b ==> Phase(x) == p
  {
  }

  /** When no image is found, nothing but probes and reloads happened: no
      download, no temporary file, no recognition, no typing. */
  lemma NotFoundSkipsSolving(o: Oracle)
    ensures var r := CaptchaRun(o);
      r.result == Failure(CaptchaImageNotFound) ==>
        && r.steps == ProbeRun(o, 0).steps
        && (forall a :: a in r.steps ==> a.ProbeCaptcha? || a.Reload?)
  {
    CaptchaTrace(o);
    ProbeLoopOnlyProbes(o);
  }

  /** The only text typed into the captcha box is the sanitised reply, which
      is also what is returned, and the only URL downloaded is the one the
      probe loop found. */
  lemma TypesSanitizedReply(o: Oracle)
    ensures var r := CaptchaRun(o);
      && (forall k :: 0 <= k < |r.steps| && r.steps[k].Type? ==>
            r.steps[k] == Type(CaptchaBox, Sanitize(o.reply)) && AllAsciiAlnum(r.steps[k].text))
      && (forall k :: 0 <= k < |r.steps| && r.steps[k].FetchImage? ==>
            ProbeRun(o, 0).result == Success(r.steps[k].url) && IsHit(Some(r.steps[k].url)))
      && (r.result.Success? ==> r.result.value == Sanitize(o.reply))
  {
    CaptchaTrace(o);
    ProbeLoopStopsAtFirstHit(o);
    ProbePartTypesNothing(o);
    SolvePartTypesReply(o);
  }

  /** The probe loop's part of the handler neither types nor downloads. */
  lemma ProbePartTypesNothing(o: Oracle)
    ensures var r := CaptchaRun(o);
      forall k :: 0 <= k < |ProbeRun(o, 0).steps| && k < |r.steps| ==> !r.steps[k].Type? && !r.steps[k].FetchImage?
  {
    CaptchaTrace(o);
    ProbeLoopOnlyProbes(o);
    var probe := ProbeRun(o, 0);
    var r := CaptchaRun(o);
    forall k | 0 <= k < |probe.steps| && k < |r.steps|
      ensures !r.steps[k].Type? && !r.steps[k].FetchImage?
    {
      assert r.steps[k] == probe.steps[k] && probe.steps[k] in probe.steps;
    }
  }

  /** After the probe loop, the only text typed is the sanitised reply and
      the only URL downloaded is the one the loop found. */
  lemma SolvePartTypesReply(o: Oracle)
    ensures var r := CaptchaRun(o); var probe := ProbeRun(o, 0);
      forall k :: |probe.steps| <= k < |r.steps| ==>
        && (r.steps[k].Type? ==> r.steps[k] == Type(CaptchaBox, Sanitize(o.reply)))
        && (r.steps[k].FetchImage? ==> probe.result == Success(r.steps[k].url))
  {
    CaptchaTrace(o);
    var probe := ProbeRun(o, 0);
    var r := CaptchaRun(o);
    if probe.result.Success? {
      var plan := SolvePlan(probe.result.value, Sanitize(o.reply));
      forall k | |probe.steps| <= k < |r.steps|
        ensures r.steps[k].Type? ==> r.steps[k] == Type(CaptchaBox, Sanitize(o.reply))
        ensures r.steps[k].FetchImage? ==> r.steps[k].url == probe.result.value
      {
        assert r.steps[k] == plan[k - |probe.steps|];
      }
    }
  }

  /** The temporary captcha image is deleted only on the success path, as
      the last action: a failure after the file was written leaves it
      behind. */
  lemma TempImageDeletedOnlyOnSuccess(o: Oracle)
    ensures var r := CaptchaRun(o);
      && (r.result.Success? ==> WriteImage in r.steps && Last(r.steps) == DeleteImage)
      && (r.result.Failure? && DeleteImage !in o.faults ==> DeleteImage !in r.steps)
  {
    CaptchaTrace(o);
    CaptchaStopsAtFault(o);
    ProbeLoopOnlyProbes(o);
    var probe := ProbeRun(o, 0);
    var r := CaptchaRun(o);
    if probe.result.Success? {
      var plan := SolvePlan(probe.result.value, Sanitize(o.reply));
      var n := |r.steps| - |probe.steps|;
      if r.result.Success? {
        assert r.steps[|probe.steps| + 1] == plan[1];
      } else if DeleteImage !in o.faults {
        assert n < |plan| by {
          if r.result.error.Thrown? {
            assert Last(r.steps) == r.steps[|probe.steps| + n - 1];
          }
        }
        forall j | 0 <= j < n ensures plan[..n][j] != DeleteImage {
          assert plan[..n][j] == plan[j];
        }
      }
    }
  }

  /** When nothing throws, the first probe finds the image, its download
      succeeds and the API key is set, the handler returns the sanitised
      reply. */
  lemma CaptchaSucceedsWhenNothingFails(o: Oracle)
    requires o.faults == map[]
    requires IsHit(CaptchaSrc(o, 0)) && o.imageResponse.ok && HasApiKey(o.apiKey)
    ensures CaptchaRun(o).result == Success(Sanitize(o.reply))
  {
    var text := Sanitize(o.reply);
    RunPlanSucceeds(o, RecognizePlan(text), text);
  }

  /** One iteration of the loop at attempt `i`, case by case. */
  lemma ProbeRunCases(o: Oracle, i: nat)
    requires i < MaxImageRetry
    ensures var r := ProbeRun(o, i); var p := ProbeCaptcha(i);
      && (p in o.faults ==> r == Run(Failure(Thrown(p, o.faults[p])), [p]))
      && (p !in o.faults && IsHit(CaptchaSrc(o, i)) ==> r == Run(Success(CaptchaSrc(o, i).value), [p]))
      && (p !in o.faults && !IsHit(CaptchaSrc(o, i)) && i + 1 == MaxImageRetry ==>
            r == Run(Failure(CaptchaImageNotFound), [p]))
      && (p !in o.faults && !IsHit(CaptchaSrc(o, i)) && i + 1 < MaxImageRetry && Reload(i + 1) in o.faults ==>
            r == Run(Failure(Thrown(Reload(i + 1), o.faults[Reload(i + 1)])), [p, Reload(i + 1)]))
      && (p !in o.faults && !IsHit(CaptchaSrc(o, i)) && i + 1 < MaxImageRetry && Reload(i + 1) !in o.faults ==>
            r == Run(ProbeRun(o, i + 1).result, [p, Reload(i + 1)] + ProbeRun(o, i + 1).steps))
  {
  }

  /** The probe loop, as written: probe, stop at a hit, count the miss,
      reload while budget remains; after the loop, throw if no image. */
  method FindCaptchaImage(h: Host) returns (r: Result<string, Error>)
    modifies h`log
    ensures h.log == old(h.log) + ProbeRun(h.oracle, 0).steps
    ensures r == ProbeRun(h.oracle, 0).result
  {
    ghost var o := h.oracle;
    ghost var total := ProbeRun(o, 0);
    ghost var start := h.log;
    // the run of the iterations still to come
    ghost var rest := total;
    var imageUrl: Option<string> := None;
    var retryImage: nat := 0;
    while retryImage < MaxImageRetry
      invariant retryImage <= MaxImageRetry
      invariant start + total.steps == h.log + rest.steps && total.result == rest.result
      invariant retryImage < MaxImageRetry ==> rest == ProbeRun(o, retryImage)
      invariant retryImage == MaxImageRetry ==>
        rest == Run(Failure(CaptchaImageNotFound), []) && !IsHit(imageUrl)
    {
      ProbeRunCases(o, retryImage);
      ghost var before := h.log;
      var probed := h.EvaluateCaptchaSrc(retryImage);
      if probed.Failure? {
        return probed.PropagateFailure();
      }
      imageUrl := probed.value;
      if IsHit(imageUrl) {
        break;
      }
      retryImage := retryImage + 1;
      if retryImage < MaxImageRetry {
        var reloaded := h.Perform(Reload(retryImage));
        if reloaded.Fail? {
          return reloaded.PropagateFailure();
        }
        AppendPair(before, ProbeCaptcha(retryImage - 1), Reload(retryImage), ProbeRun(o, retryImage).steps);
        rest := ProbeRun(o, retryImage);
      } else {
        assert h.log + [] == h.log;
        rest := Run(Failure(CaptchaImageNotFound), []);
      }
    }
    if !IsHit(imageUrl) {
      return Failure(CaptchaImageNotFound);
    }
    return Success(imageUrl.value);
  }

  method HandleCaptcha(h: Host) returns (r: Result<string, Error>)
    modifies h`log
    ensures h.log == old(h.log) + CaptchaRun(h.oracle).steps
    ensures r == CaptchaRun(h.oracle).result
  {
    ghost var o := h.oracle;
    ghost var start := h.log;
    var imageUrl :- FindCaptchaImage(h);
    ghost var total := CaptchaRun(o);
    // the part of the run still to come, and the log before the next step
    ghost var rest := SolveRun(o, imageUrl);
    ghost var log := h.log;
    AppendAssoc(start, ProbeRun(o, 0).steps, rest.steps);
    var response :- h.Fetch(imageUrl);
    rest, log := Resume(start, total, log, rest), h.log;
    if !response.ok {
      return Failure(ImageDownloadFailed(response.statusText));
    }
    :- h.Perform(WriteImage);
    rest, log := Resume(start, total, log, rest), h.log;
    if !HasApiKey(h.oracle.apiKey) {
      return Failure(ApiKeyMissing);
    }
    RecognizeRunUnfolded(o, Sanitize(o.reply));
    :- h.Perform(ReadImage);
    rest, log := Resume(start, total, log, rest), h.log;
    var recognizedText :- h.GenerateContent();
    rest, log := Resume(start, total, log, rest), h.log;
    var captchaText := Sanitize(recognizedText);
    :- h.Perform(Click(CaptchaBox));
    rest, log := Resume(start, total, log, rest), h.log;
    :- h.Perform(Type(CaptchaBox, captchaText));
    rest, log := Resume(start, total, log, rest), h.log;
    :- h.Perform(DeleteImage);
    rest, log := Resume(start, total, log, rest), h.log;
    return Success(captchaText);
  }
}

=== FILE: effects.dfy ===
/** The outside world as the lookup service sees it: the headless browser and
    its page, the image download, the temporary captcha file, the
    recognition service and the screenshot file.

    Each awaited call is an `Action`. Whether it throws, and what it answers,
    is fixed in advance by an `Oracle`; the `Host` performs the actions in
    the order the program issues them and records them in a ghost log. A
    `Run` pairs what a piece of the program returns (or throws) with the
    actions it performed, and the combinators below build the runs of
    straight-line code with early exits, as `await` and `throw` give it. */
module Effects {
  import opened Wrappers

  /** The text boxes of the lookup form: `#txtCaptcha`, `#txtBienDK` (the
      licence plate) and `#TxtSoTem` (the inspection sticker number). */
  datatype Field = CaptchaBox | PlateBox | StickerBox

  datatype Action =
    | LaunchBrowser                 // puppeteer.launch
    | OpenPage                      // browser.newPage
    | Navigate                      // page.goto of the lookup page
    | ProbeCaptcha(attempt: nat)    // page.evaluate reading `#captchaImage`'s src
    | Reload(attempt: nat)          // page.goto before probe number `attempt`
    | FetchImage(url: string)       // fetch of the captcha image, together with
                                    // response.arrayBuffer() after the ok check: a
                                    // throw from either ends the handler the same way
    | WriteImage                    // fs.writeFile of the temporary captcha image
    | ReadImage                     // fs.readFile of the temporary captcha image
    | Recognize                     // generateContent and the reply's text()
    | Click(field: Field)
    | Type(field: Field, text: string)
    | DeleteImage                   // fs.unlink of the temporary captcha image
    | SubmitForm                    // page.evaluate submitting `Form1`
    | Screenshot(path: string)      // page.screenshot, full page
    | ReadResult                    // page.evaluate reading `.result`
    | CloseBrowser                  // browser.close
    | ReadScreenshot(path: string)  // fs.readFile of the screenshot, in the endpoint

  /** What can end a lookup early: an exception from an awaited call (with
      its message), or one of the errors the captcha handler throws itself. */
  datatype Error =
    | Thrown(action: Action, message: string)
    | CaptchaImageNotFound
    | ImageDownloadFailed(statusText: string)
    | ApiKeyMissing

  /** The `message` of the thrown `Error`. */
  function Message(e: Error): string {
    match e
    case Thrown(_, m) => m
    case CaptchaImageNotFound => "Không tìm thấy hình ảnh captcha trên trang sau 3 lần thử."
    case ImageDownloadFailed(status) => "Tải hình ảnh thất bại: " + status
    case ApiKeyMissing => "GOOGLE_API_KEY chưa được thiết lập"
  }

  /** The parts of the captcha image's HTTP response that the program reads. */
  datatype ImageResponse = ImageResponse(ok: bool, statusText: string)

  /** Everything the outside world decides:
      - `faults`: the actions that throw, each with its error message;
      - `captchaSrcs`: the src of `#captchaImage` at each probe (None when
        the element is absent; probes past the end find no element);
      - `imageResponse`: the status of the captcha image download;
      - `apiKey`: the GOOGLE_API_KEY environment variable;
      - `reply`: the recognition model's reply text;
      - `resultHtml`: the inner HTML of `.result` (None when absent);
      - `now`: what Date.now() returns when the screenshot is named. */
  datatype Oracle = Oracle(
    faults: map<Action, string>,
    captchaSrcs: seq<Option<string>>,
    imageResponse: ImageResponse,
    apiKey: Option<string>,
    reply: string,
    resultHtml: Option<string>,
    now: nat)

  function CaptchaSrc(o: Oracle, attempt: nat): Option<string> {
    if attempt < |o.captchaSrcs| then o.captchaSrcs[attempt] else None
  }

  /** What awaiting action `a` yields: `v`, unless the action throws. */
  function Answer<T>(o: Oracle, a: Action, v: T): Result<T, Error> {
    if a in o.faults then Failure(Thrown(a, o.faults[a])) else Success(v)
  }

  function Attempt(o: Oracle, a: Action): Outcome<Error> {
    if a in o.faults then Fail(Thrown(a, o.faults[a])) else Pass
  }

  /** What a piece of the program returns or throws, and the actions it
      performed, in order. */
  datatype Run<+T> = Run(result: Result<T, Error>, steps: seq<Action>)

  /** `await a;` followed by `next`: a throw from `a` ends the run there. */
  function Step<T>(o: Oracle, a: Action, next: Run<T>): Run<T> {
    if a in o.faults then Run(Failure(Thrown(a, o.faults[a])), [a])
    else Run(next.result, [a] + next.steps)
  }

  /** `if (failed) throw e;` followed by `next`. */
  function Check<T>(failed: bool, e: Error, next: Run<T>): Run<T> {
    if failed then Run(Failure(e), []) else next
  }

  /** `return v;` */
  function Done<T>(v: T): Run<T> {
    Run(Success(v), [])
  }

  /** `a` was performed and answered without throwing; then `next`. */
  function Prepend<T>(a: Action, next: Run<T>): Run<T> {
    Run(next.result, [a] + next.steps)
  }

  /** `await first;` (its value discarded) followed by `next`. */
  function Then<T, U>(first: Run<T>, next: Run<U>): Run<U> {
    match first.result
    case Failure(e) => Run(Failure(e), first.steps)
    case Success(_) => Run(next.result, first.steps + next.steps)
  }

  /** `try { body } finally { await browser.close(); }`: the browser is
      closed whatever the body did, and a throw from close replaces the
      body's outcome. */
  function Finally<T>(o: Oracle, body: Run<T>): Run<T> {
    var result := if CloseBrowser in o.faults then Failure(Thrown(CloseBrowser, o.faults[CloseBrowser]))
                  else body.result;
    Run(result, body.steps + [CloseBrowser])
  }

  function Last<T>(s: seq<T>): T
    requires s != []
  {
    s[|s| - 1]
  }

  /** Every action of the run but the last one completed, and the last one
      threw exactly when the run ends with that action's exception. */
  ghost predicate StopsAtFault<T>(o: Oracle, r: Run<T>) {
    && (forall k :: 0 <= k < |r.steps| - 1 ==> r.steps[k] !in o.faults)
    && (r.steps != [] && Last(r.steps) in o.faults ==>
          r.result == Failure(Thrown(Last(r.steps), o.faults[Last(r.steps)])))
    && (r.result.Failure? && r.result.error.Thrown? ==>
          r.steps != [] && Last(r.steps) in o.faults &&
          r.result.error == Thrown(Last(r.steps), o.faults[Last(r.steps)]))
  }

  lemma StepStops<T>(o: Oracle, a: Action, next: Run<T>)
    requires StopsAtFault(o, next)
    ensures StopsAtFault(o, Step(o, a, next))
  {
    var r := Step(o, a, next);
    if a !in o.faults {
      forall k | 0 <= k < |r.steps| - 1 ensures r.steps[k] !in o.faults {
        if k > 0 { assert r.steps[k] == next.steps[k - 1]; }
      }
      if next.steps != [] { assert Last(r.steps) == Last(next.steps); }
    }
  }

  lemma CheckStops<T>(o: Oracle, failed: bool, e: Error, next: Run<T>)
    requires !e.Thrown? && StopsAtFault(o, next)
    ensures StopsAtFault(o, Check(failed, e, next))
  {
  }

  lemma PrependStops<T>(o: Oracle, a: Action, next: Run<T>)
    requires a !in o.faults && StopsAtFault(o, next)
    ensures StopsAtFault(o, Prepend(a, next))
  {
    assert Prepend(a, next) == Step(o, a, next);
    StepStops(o, a, next);
  }

  lemma ThenStops<T, U>(o: Oracle, first: Run<T>, next: Run<U>)
    requires StopsAtFault(o, first) && StopsAtFault(o, next)
    ensures StopsAtFault(o, Then(first, next))
  {
    var r := Then(first, next);
    if first.result.Success? {
      forall k | 0 <= k < |r.steps| - 1 ensures r.steps[k] !in o.faults {
        if k < |first.steps| {
          assert r.steps[k] == first.steps[k];
        } else {
          assert r.steps[k] == next.steps[k - |first.steps|];
        }
      }
      if next.steps != [] {
        assert Last(r.steps) == Last(next.steps);
      } else if first.steps != [] {
        assert r.steps == first.steps;
      }
    }
  }

  /** The run performed a prefix of `plan`, all of it when it succeeded,
      and stopped short of its end when one of its own checks failed. */
  ghost predicate Follows<T>(r: Run<T>, plan: seq<Action>) {
    && |r.steps| <= |plan|
    && r.steps == plan[..|r.steps|]
    && (r.result.Success? ==> r.steps == plan)
    && (r.result.Failure? && !r.result.error.Thrown? ==> |r.steps| < |plan|)
  }

  lemma StepFollows<T>(o: Oracle, a: Action, next: Run<T>, plan: seq<Action>)
    requires Follows(next, plan)
    ensures Follows(Step(o, a, next), [a] + plan)
  {
    var r := Step(o, a, next);
    if a in o.faults {
      assert r.steps == ([a] + plan)[..1];
    } else {
      assert r.steps == ([a] + plan)[..|r.steps|];
    }
  }

  lemma CheckFollows<T>(failed: bool, e: Error, next: Run<T>, plan: seq<Action>)
    requires Follows(next, plan) && plan != [] && !e.Thrown?
    ensures Follows(Check(failed, e, next), plan)
  {
  }

  /** `await plan[0]; await plan[1]; ...; return v;` */
  function RunPlan<T>(o: Oracle, plan: seq<Action>, v: T): Run<T> {
    if plan == [] then Done(v) else Step(o, plan[0], RunPlan(o, plan[1..], v))
  }

  /** A sequence of awaited actions performs a prefix of them, stops at the
      first that throws and rethrows its exception, and otherwise performs
      them all and returns `v`. */
  lemma {:induction false} RunPlanFollows<T>(o: Oracle, plan: seq<Action>, v: T)
    ensures Follows(RunPlan(o, plan, v), plan)
    ensures StopsAtFault(o, RunPlan(o, plan, v))
    ensures RunPlan(o, plan, v).result.Success? ==> RunPlan(o, plan, v).result.value == v
    ensures RunPlan(o, plan, v).result.Failure? ==> RunPlan(o, plan, v).result.error.Thrown?
  {
    if plan != [] {
      RunPlanFollows(o, plan[1..], v);
      StepFollows(o, plan[0], RunPlan(o, plan[1..], v), plan[1..]);
      StepStops(o, plan[0], RunPlan(o, plan[1..], v));
      assert [plan[0]] + plan[1..] == plan;
    }
  }

  /** When none of its actions throws, a sequence of awaited actions
      returns `v`. */
  lemma {:induction false} RunPlanSucceeds<T>(o: Oracle, plan: seq<Action>, v: T)
    requires forall a :: a in plan ==> a !in o.faults
    ensures RunPlan(o, plan, v) == Run(Success(v), plan)
  {
    if plan != [] {
      assert forall a :: a in plan[1..] ==> a in plan;
      RunPlanSucceeds(o, plan[1..], v);
      assert [plan[0]] + plan[1..] == plan;
    }
  }

  /** The order of the lookup: launch, open the page, navigate, solve the
      captcha, fill the plate, fill the sticker number, submit, screenshot,
      read the result, close; reading the screenshot file comes last. */
  function Phase(a: Action): nat {
    match a
    case LaunchBrowser => 0
    case OpenPage => 1
    case Navigate => 2
    case Click(f) => FieldPhase(f)
    case Type(f, _) => FieldPhase(f)
    case SubmitForm => 6
    case Screenshot(_) => 7
    case ReadResult => 8
    case CloseBrowser => 9
    case ReadScreenshot(_) => 10
    case _ => 3  // the captcha actions
  }

  function FieldPhase(f: Field): nat {
    match f
    case CaptchaBox => 3
    case PlateBox => 4
    case StickerBox => 5
  }

  /** The actions' phases lie in [lo, hi] and never decrease. */
  ghost predicate Ordered(steps: seq<Action>, lo: nat, hi: nat) {
    && (forall k :: 0 <= k < |steps| ==> lo <= Phase(steps[k]) <= hi)
    && (forall i, j :: 0 <= i < j < |steps| ==> Phase(steps[i]) <= Phase(steps[j]))
  }

  lemma AppendAssoc(a: seq<Action>, b: seq<Action>, c: seq<Action>)
    ensures (a + b) + c == a + (b + c)
  {
  }

  lemma AppendPair(d: seq<Action>, p: Action, q: Action, rest: seq<Action>)
    ensures d + ([p, q] + rest) == ((d + [p]) + [q]) + rest
  {
  }

  /** The run still to come after its first action has been logged:
      `start + total.steps == log + rest.steps` carries over from `log`
      to `log + [rest.steps[0]]`. */
  ghost function Resume<T>(start: seq<Action>, total: Run<T>, log: seq<Action>, rest: Run<T>): (next: Run<T>)
    requires rest.steps != []
    requires start + total.steps == log + rest.steps && total.result == rest.result
    ensures start + total.steps == (log + [rest.steps[0]]) + next.steps && total.result == next.result
    ensures rest == Run(next.result, [rest.steps[0]] + next.steps)
  {
    assert rest.steps == [rest.steps[0]] + rest.steps[1..];
    AppendAssoc(log, [rest.steps[0]], rest.steps[1..]);
    Run(rest.result, rest.steps[1..])
  }

  lemma SamePhaseOrdered(steps: seq<Action>, p: nat)
    requires forall a :: a in steps ==> Phase(a) == p
    ensures Ordered(steps, p, p)
  {
    assert forall k :: 0 <= k < |steps| ==> steps[k] in steps;
  }

  lemma AppendOrdered(a: seq<Action>, b: seq<Action>, lo: nat, mid: nat, hi: nat)
    requires Ordered(a, lo, mid) && Ordered(b, mid, hi) && lo <= mid <= hi
    ensures Ordered(a + b, lo, hi)
  {
    var s := a + b;
    forall i, j | 0 <= i < j < |s| ensures Phase(s[i]) <= Phase(s[j]) {
      if j < |a| {
        assert s[i] == a[i] && s[j] == a[j];
      } else if i >= |a| {
        assert s[i] == b[i - |a|] && s[j] == b[j - |a|];
      } else {
        assert s[i] == a[i] && s[j] == b[j - |a|];
      }
    }
    forall k | 0 <= k < |s| ensures lo <= Phase(s[k]) <= hi {
      if k < |a| { assert s[k] == a[k]; } else { assert s[k] == b[k - |a|]; }
    }
  }

  lemma PrefixOrdered(s: seq<Action>, n: nat, lo: nat, hi: nat)
    requires Ordered(s, lo, hi) && n <= |s|
    ensures Ordered(s[..n], lo, hi)
  {
    assert forall k :: 0 <= k < n ==> s[..n][k] == s[k];
  }

  lemma ConsOrdered(a: Action, s: seq<Action>, lo: nat, hi: nat)
    requires Phase(a) <= lo <= hi && Ordered(s, lo, hi)
    ensures Ordered([a] + s, Phase(a), hi)
  {
    AppendOrdered([a], s, Phase(a), Phase(a), hi);
  }

  /** An action whose phase lies outside an ordered run's range is not in it. */
  lemma OutsideOrdered(s: seq<Action>, lo: nat, hi: nat, a: Action)
    requires Ordered(s, lo, hi) && !(lo <= Phase(a) <= hi)
    ensures a !in s
  {
    assert forall k :: 0 <= k < |s| ==> s[k] != a;
  }

  /** Launching the browser and opening a page, then a try block with
      `finally`: a throw from launching or opening ends the run there;
      otherwise the body runs and the browser is closed. */
  lemma OpenedFinallyCases<T>(o: Oracle, body: Run<T>)
    ensures var r := Step(o, LaunchBrowser, Step(o, OpenPage, Finally(o, body)));
      && (LaunchBrowser in o.faults ==>
            r == Run(Failure(Thrown(LaunchBrowser, o.faults[LaunchBrowser])), [LaunchBrowser]))
      && (LaunchBrowser !in o.faults && OpenPage in o.faults ==>
            r == Run(Failure(Thrown(OpenPage, o.faults[OpenPage])), [LaunchBrowser, OpenPage]))
      && (LaunchBrowser !in o.faults && OpenPage !in o.faults ==>
            && r.steps == [LaunchBrowser, OpenPage] + (body.steps + [CloseBrowser])
            && r.result == Finally(o, body).result)
  {
  }

  /** Once the browser is open, `finally` closes it exactly once, as the
      last action, provided the body never closes it itself; when launching
      or opening the page throws, it is never closed. */
  lemma OpenedClosesOnceLast<T>(o: Oracle, body: Run<T>)
    requires CloseBrowser !in body.steps
    ensures var r := Step(o, LaunchBrowser, Step(o, OpenPage, Finally(o, body)));
      && (LaunchBrowser !in o.faults && OpenPage !in o.faults ==>
            && r.steps == [LaunchBrowser, OpenPage] + body.steps + [CloseBrowser]
            && Last(r.steps) == CloseBrowser
            && multiset(r.steps)[CloseBrowser] == 1)
      && (LaunchBrowser in o.faults || OpenPage in o.faults ==> CloseBrowser !in r.steps)
  {
    OpenedFinallyCases(o, body);
    var r := Step(o, LaunchBrowser, Step(o, OpenPage, Finally(o, body)));
    if LaunchBrowser !in o.faults && OpenPage !in o.faults {
      assert r.steps == [LaunchBrowser, OpenPage] + body.steps + [CloseBrowser];
      assert multiset(r.steps) == multiset([LaunchBrowser, OpenPage]) + multiset(body.steps) + multiset{CloseBrowser};
      assert multiset(body.steps)[CloseBrowser] == 0;
    }
  }

  /** A body that stops at its first throw, run after launching and opening
      a page and followed by `finally`'s close: the whole stops at its first
      throw up to the close, and a throwing close makes its error the
      outcome. */
  lemma OpenedFinallyStops<T>(o: Oracle, body: Run<T>)
    requires StopsAtFault(o, body) && CloseBrowser !in body.steps
    ensures var r := Step(o, LaunchBrowser, Step(o, OpenPage, Finally(o, body)));
      && (LaunchBrowser in o.faults || OpenPage in o.faults ==> StopsAtFault(o, r))
      && (LaunchBrowser !in o.faults && OpenPage !in o.faults ==>
            && r.steps != [] && Last(r.steps) == CloseBrowser
            && (CloseBrowser !in o.faults ==> StopsAtFault(o, Run(r.result, r.steps[..|r.steps| - 1])))
            && (CloseBrowser in o.faults ==>
                  r.result == Failure(Thrown(CloseBrowser, o.faults[CloseBrowser]))))
    ensures var r := Step(o, LaunchBrowser, Step(o, OpenPage, Finally(o, body)));
      (forall k :: 0 <= k < |r.steps| ==> r.steps[k] !in o.faults) ==>
        r.result.Success? || !r.result.error.Thrown?
  {
    OpenedFinallyCases(o, body);
    var r := Step(o, LaunchBrowser, Step(o, OpenPage, Finally(o, body)));
    if LaunchBrowser !in o.faults && OpenPage !in o.faults {
      var front := Prepend(LaunchBrowser, Prepend(OpenPage, body));
      PrependStops(o, OpenPage, body);
      PrependStops(o, LaunchBrowser, Prepend(OpenPage, body));
      assert front.steps == [LaunchBrowser, OpenPage] + body.steps;
      assert r.steps == front.steps + [CloseBrowser];
      assert r.steps[..|r.steps| - 1] == front.steps;
      if forall k :: 0 <= k < |r.steps| ==> r.steps[k] !in o.faults {
        assert Last(r.steps) !in o.faults;
        NoFaultNoThrow(o, front);
      }
    }
  }

  /** A run that stops at its first throw, none of whose actions threw,
      did not end with a thrown error. */
  lemma NoFaultNoThrow<T>(o: Oracle, r: Run<T>)
    requires StopsAtFault(o, r)
    ensures (forall k :: 0 <= k < |r.steps| ==> r.steps[k] !in o.faults) ==>
      r.result.Success? || !r.result.error.Thrown?
  {
    if r.result.Failure? && r.result.error.Thrown? && r.steps != [] {
      assert Last(r.steps) == r.steps[|r.steps| - 1];
    }
  }

  lemma AppendLaunched(start: seq<Action>, body: seq<Action>)
    ensures (((start + [LaunchBrowser]) + [OpenPage]) + body) + [CloseBrowser] ==
      start + ([LaunchBrowser, OpenPage] + (body + [CloseBrowser]))
  {
  }

  lemma StepOrdered<T>(o: Oracle, a: Action, next: Run<T>, lo: nat, hi: nat)
    requires Phase(a) <= lo <= hi && Ordered(next.steps, lo, hi)
    ensures Ordered(Step(o, a, next).steps, Phase(a), hi)
  {
    if a !in o.faults {
      AppendOrdered([a], next.steps, Phase(a), Phase(a), hi);
    }
  }

  lemma ThenOrdered<T, U>(first: Run<T>, next: Run<U>, lo: nat, mid: nat, hi: nat)
    requires Ordered(first.steps, lo, mid) && Ordered(next.steps, mid, hi) && lo <= mid <= hi
    ensures Ordered(Then(first, next).steps, lo, hi)
  {
    if first.result.Success? {
      AppendOrdered(first.steps, next.steps, lo, mid, hi);
    }
  }

  /** The process's handle on the outside world. `log` is every action
      performed so far; `openBrowsers` counts the browsers launched and not
      yet closed. */
  class Host {
    const oracle: Oracle
    ghost var log: seq<Action>
    var openBrowsers: nat

    constructor (o: Oracle)
      ensures oracle == o && log == [] && openBrowsers == 0
    {
      oracle := o;
      log := [];
      openBrowsers := 0;
    }

    /** Awaits an action that yields no value the program uses. */
    method Perform(a: Action) returns (out: Outcome<Error>)
      modifies this`log
      ensures log == old(log) + [a]
      ensures out == Attempt(oracle, a)
    {
      log := log + [a];
      out := if a in oracle.faults then Fail(Thrown(a, oracle.faults[a])) else Pass;
    }

    method Launch() returns (out: Outcome<Error>)
      modifies this`log, this`openBrowsers
      ensures log == old(log) + [LaunchBrowser]
      ensures out == Attempt(oracle, LaunchBrowser)
      ensures openBrowsers == old(openBrowsers) + (if out.Pass? then 1 else 0)
    {
      out := Perform(LaunchBrowser);
      if out.Pass? {
        openBrowsers := openBrowsers + 1;
      }
    }

    /** `browser.close()`. A close that throws is taken to leave the browser
        open, so the count drops only when it completes. */
    method Close() returns (out: Outcome<Error>)
      requires openBrowsers > 0
      modifies this`log, this`openBrowsers
      ensures log == old(log) + [CloseBrowser]
      ensures out == Attempt(oracle, CloseBrowser)
      ensures openBrowsers == old(openBrowsers) - (if out.Pass? then 1 else 0)
    {
      out := Perform(CloseBrowser);
      if out.Pass? {
        openBrowsers := openBrowsers - 1;
      }
    }

    /** `document.querySelector('#captchaImage')`, its src or null. */
    method EvaluateCaptchaSrc(attempt: nat) returns (r: Result<Option<string>, Error>)
      modifies this`log
      ensures log == old(log) + [ProbeCaptcha(attempt)]
      ensures r == Answer(oracle, ProbeCaptcha(attempt), CaptchaSrc(oracle, attempt))
    {
      var out := Perform(ProbeCaptcha(attempt));
      r := if out.Fail? then Failure(out.error) else Success(CaptchaSrc(oracle, attempt));
    }

    method Fetch(url: string) returns (r: Result<ImageResponse, Error>)
      modifies this`log
      ensures log == old(log) + [FetchImage(url)]
      ensures r == Answer(oracle, FetchImage(url), oracle.imageResponse)
    {
      var out := Perform(FetchImage(url));
      r := if out.Fail? then Failure(out.error) else Success(oracle.imageResponse);
    }

    method GenerateContent() returns (r: Result<string, Error>)
      modifies this`log
      ensures log == old(log) + [Recognize]
      ensures r == Answer(oracle, Recognize, oracle.reply)
    {
      var out := Perform(Recognize);
      r := if out.Fail? then Failure(out.error) else Success(oracle.reply);
    }

    /** `document.querySelector('.result')`, its innerHTML or null. */
    method QueryResult() returns (r: Result<Option<string>, Error>)
      modifies this`log
      ensures log == old(log) + [ReadResult]
      ensures r == Answer(oracle, ReadResult, oracle.resultHtml)
    {
      var out := Perform(ReadResult);
      r := if out.Fail? then Failure(out.error) else Success(oracle.resultHtml);
    }
  }
}

=== FILE: endpoint.dfy ===
/** The `POST /api/vehicle-lookup` handler: validate the request body, run
    the lookup, and answer with the lookup's record (the screenshot attached
    when `returnBase64` asks for it) or with a JSON error body. */
module Endpoint {
  import opened Wrappers
  import opened Effects
  import opened Captcha
  import opened Lookup

  const MissingFieldsText: string := "Vui lòng cung cấp đầy đủ biển số và số tem"
  const LookupFailedText: string := "Có lỗi xảy ra khi xử lý yêu cầu"
  const ImageFailedText: string := "Lỗi khi xử lý ảnh"
  const PngMimeType: string := "image/png"
  const ScreenshotRoute: string := "/screenshots/"

  /** A JSON scalar, or an array or object, as the body parser yields it. */
  datatype Json = JNull | JBool(b: bool) | JNumber(n: int) | JString(s: string) | JCompound

  /** JavaScript truthiness of a parsed JSON value. */
  predicate Truthy(v: Json) {
    match v
    case JNull => false
    case JBool(b) => b
    case JNumber(n) => n != 0
    case JString(s) => s != ""
    case JCompound => true
  }

  /** The fields of the request body; `None` is a field that is absent or
      null. */
  datatype Request = Request(
    licensePlate: Option<string>,
    stickerNumber: Option<string>,
    returnBase64: Option<Json>)

  /** `!field` is false: the field is there and is not the empty string. */
  predicate Provided(field: Option<string>) {
    field.Some? && field.value != ""
  }

  predicate Complete(req: Request) {
    Provided(req.licensePlate) && Provided(req.stickerNumber)
  }

  /** `returnBase64 = true` in the destructuring: the default applies only
      when the field is absent; otherwise its truthiness decides. */
  predicate WantsBase64(req: Request) {
    req.returnBase64.None? || Truthy(req.returnBase64.value)
  }

  /** `path.basename` on a `/`-separated path: what follows the last `/`. */
  function Basename(p: string): (r: string)
    ensures '/' !in r
    ensures |r| <= |p| && r == p[|p| - |r|..]
    ensures |r| == |p| || p[|p| - |r| - 1] == '/'
  {
    if p == [] || p[|p| - 1] == '/' then []
    else Basename(p[..|p| - 1]) + [p[|p| - 1]]
  }

  /** A name without a directory is its own base name. */
  lemma {:induction false} BasenameOfPlainName(p: string)
    requires '/' !in p
    ensures Basename(p) == p
  {
    if p != [] {
      var q := p[..|p| - 1];
      assert '/' !in q by {
        forall i | 0 <= i < |q| ensures q[i] != '/' {
          assert q[i] == p[i];
        }
      }
      BasenameOfPlainName(q);
      assert p == q + [p[|p| - 1]];
    }
  }

  /** The JSON bodies the handler sends. The base64 encoding of the
      screenshot is not part of this model. */
  datatype Body =
    | ErrorBody(error: string, details: Option<string>)
    | RecordBody(record: LookupRecord)
    | EncodedBody(success: bool, data: string, filename: string, mimeType: string, screenshotUrl: string)

  datatype Response = Response(status: nat, body: Body)

  /** A response and the actions performed to produce it. */
  datatype Served = Served(response: Response, steps: seq<Action>)

  /** The answer when the lookup succeeded with `rec`; `attach` is whether
      the screenshot was asked for. */
  function AnswerRecord(o: Oracle, attach: bool, rec: LookupRecord): Served {
    if attach then
      var read := ReadScreenshot(rec.screenshot);
      if read in o.faults then
        Served(Response(500, ErrorBody(ImageFailedText, Some(o.faults[read]))), [read])
      else
        var name := Basename(rec.screenshot);
        Served(Response(200, EncodedBody(rec.success, rec.data, name, PngMimeType, ScreenshotRoute + name)), [read])
    else
      Served(Response(200, RecordBody(rec)), [])
  }

  /** The whole handler. */
  function EndpointRun(o: Oracle, req: Request): Served {
    if !Complete(req) then
      Served(Response(400, ErrorBody(MissingFieldsText, None)), [])
    else
      var l := LookupRun(o, req.licensePlate.value, req.stickerNumber.value);
      if l.result.Failure? then
        Served(Response(500, ErrorBody(LookupFailedText, Some(Message(l.result.error)))), l.steps)
      else
        var a := AnswerRecord(o, WantsBase64(req), l.result.value);
        Served(a.response, l.steps + a.steps)
  }

  /** The success branch of the handler: the record as it is, or with its
      screenshot read back and attached. */
  method AnswerLookup(h: Host, returnBase64: Json, rec: LookupRecord) returns (resp: Response)
    modifies h`log
    ensures h.log == old(h.log) +
      AnswerRecord(h.oracle, Truthy(returnBase64), rec).steps
    ensures resp == AnswerRecord(h.oracle, Truthy(returnBase64), rec).response
  {
    if Truthy(returnBase64) {
      var read := h.Perform(ReadScreenshot(rec.screenshot));
      if read.Fail? {
        return Response(500, ErrorBody(ImageFailedText, Some(Message(read.error))));
      }
      var name := Basename(rec.screenshot);
      return Response(200, EncodedBody(rec.success, rec.data, name, PngMimeType, ScreenshotRoute + name));
    }
    return Response(200, RecordBody(rec));
  }

  /** The handler, as written. */
  method HandleVehicleLookup(h: Host, req: Request) returns (resp: Response)
    modifies h`log, h`openBrowsers
    ensures h.log == old(h.log) + EndpointRun(h.oracle, req).steps
    ensures resp == EndpointRun(h.oracle, req).response
    ensures h.openBrowsers == old(h.openBrowsers) +
      (if Complete(req) && LaunchBrowser !in h.oracle.faults &&
          (OpenPage in h.oracle.faults || CloseBrowser in h.oracle.faults)
       then 1 else 0)
  {
    var returnBase64 := if req.returnBase64.None? then JBool(true) else req.returnBase64.value;
    if !Provided(req.licensePlate) || !Provided(req.stickerNumber) {
      return Response(400, ErrorBody(MissingFieldsText, None));
    }
    ghost var start := h.log;
    var result := PerformVehicleLookup(h, req.licensePlate.value, req.stickerNumber.value);
    if result.Failure? {
      return Response(500, ErrorBody(LookupFailedText, Some(Message(result.error))));
    }
    resp := AnswerLookup(h, returnBase64, result.value);
  }

  /** A request without both fields is answered with 400 before anything
      else happens: no browser is launched; and 400 is given for nothing
      else. */
  lemma IncompleteRequestRejected(o: Oracle, req: Request)
    ensures EndpointRun(o, req).response.status == 400 <==> !Complete(req)
    ensures !Complete(req) ==>
      EndpointRun(o, req) == Served(Response(400, ErrorBody(MissingFieldsText, None)), [])
  {
  }

  /** A complete request always runs the lookup: its actions come first, and
      at most the screenshot read follows them. */
  lemma CompleteRequestRunsLookup(o: Oracle, req: Request)
    requires Complete(req)
    ensures var e := EndpointRun(o, req); var l := LookupRun(o, req.licensePlate.value, req.stickerNumber.value);
      && e.steps[..|l.steps|] == l.steps
      && |e.steps| <= |l.steps| + 1
      && e.steps[0] == LaunchBrowser
  {
    var l := LookupRun(o, req.licensePlate.value, req.stickerNumber.value);
    var e := EndpointRun(o, req);
    assert l.steps[0] == LaunchBrowser;
    if l.result.Success? {
      assert e.steps == l.steps + AnswerRecord(o, WantsBase64(req), l.result.value).steps;
    }
  }

  /** After a successful lookup the screenshot is attached unless
      `returnBase64` is present and falsy; when it is attached, it is named
      by the screenshot's own file name, and a failure to read it gives 500
      with its own message. */
  lemma SuccessAnswer(o: Oracle, req: Request)
    requires Complete(req)
    ensures var l := LookupRun(o, req.licensePlate.value, req.stickerNumber.value);
      var e := EndpointRun(o, req);
      l.result.Success? ==>
        var rec := l.result.value; var read := ReadScreenshot(rec.screenshot);
        && (!WantsBase64(req) ==> e == Served(Response(200, RecordBody(rec)), l.steps))
        && (WantsBase64(req) ==> e.steps == l.steps + [read])
        && (WantsBase64(req) && read in o.faults ==>
              e.response == Response(500, ErrorBody(ImageFailedText, Some(o.faults[read]))))
        && (WantsBase64(req) && read !in o.faults ==>
              e.response == Response(200, EncodedBody(true, rec.data, rec.screenshot, PngMimeType,
                                                      ScreenshotRoute + rec.screenshot)))
  {
    var l := LookupRun(o, req.licensePlate.value, req.stickerNumber.value);
    if l.result.Success? {
      LookupSuccess(o, req.licensePlate.value, req.stickerNumber.value);
      ScreenshotPathPlain(o.now);
      BasenameOfPlainName(l.result.value.screenshot);
    }
  }

  /** The handler answers 200, 400 or 500, and 200 exactly when the lookup
      succeeded and, if the screenshot was asked for, reading it did too. */
  lemma StatusCodes(o: Oracle, req: Request)
    ensures var s := EndpointRun(o, req).response.status; s == 200 || s == 400 || s == 500
    ensures EndpointRun(o, req).response.status == 200 <==>
      Complete(req) &&
      var l := LookupRun(o, req.licensePlate.value, req.stickerNumber.value);
      l.result.Success? && (WantsBase64(req) ==> ReadScreenshot(l.result.value.screenshot) !in o.faults)
  {
  }

  /** When nothing throws and the page cooperates, a complete request is
      answered 200 with the `.result` HTML (or NoResultText) and the
      screenshot taken at `now`. */
  lemma EndToEndSuccess(o: Oracle, req: Request)
    requires Complete(req) && o.faults == map[]
    requires IsHit(CaptchaSrc(o, 0)) && o.imageResponse.ok && HasApiKey(o.apiKey)
    ensures var path := ScreenshotPath(o.now);
      EndpointRun(o, req).response == Response(200,
        if WantsBase64(req) then EncodedBody(true, ResultData(o.resultHtml), path, PngMimeType, ScreenshotRoute + path)
        else RecordBody(LookupRecord(true, ResultData(o.resultHtml), path)))
  {
    LookupSucceedsWhenNothingFails(o, req.licensePlate.value, req.stickerNumber.value);
    SuccessAnswer(o, req);
  }
}

=== FILE: lookup.dfy ===
/** `performVehicleLookup`: launch the browser, open a page, and inside
    try/finally navigate to the lookup form, solve its captcha, fill in the
    licence plate and the sticker number, submit, take a screenshot and read
    the result; the browser is closed in `finally`, and the catch block
    rethrows what it caught. */
module Lookup {
  import opened Wrappers
  import opened Effects
  import opened Captcha

  /** What the page's `.result` query returns when there is no such element. */
  const NoResultText: string := "Không tìm thấy kết quả"

  /** The object `performVehicleLookup` resolves to. */
  datatype LookupRecord = LookupRecord(success: bool, data: string, screenshot: string)

  function DigitChar(d: nat): char
    requires d < 10
  {
    ('0' as int + d) as char
  }

  /** The decimal numeral of `n`, as a template literal prints a
      non-negative integer: no sign, no leading zeros. */
  function Decimal(n: nat): (r: string)
    ensures |r| >= 1
    ensures forall i :: 0 <= i < |r| ==> '0' <= r[i] <= '9'
    ensures |r| > 1 ==> r[0] != '0'
  {
    if n < 10 then [DigitChar(n)] else Decimal(n / 10) + [DigitChar(n % 10)]
  }

  /** Reads a numeral made of decimal digits. */
  function DecimalValue(s: string): nat
    requires forall i :: 0 <= i < |s| ==> '0' <= s[i] <= '9'
  {
    if s == [] then 0 else DecimalValue(s[..|s| - 1]) * 10 + (s[|s| - 1] as int - '0' as int)
  }

  /** Reading the numeral gives the number back. */
  lemma {:induction false} DecimalRoundTrip(n: nat)
    ensures DecimalValue(Decimal(n)) == n
  {
    if n >= 10 {
      DecimalRoundTrip(n / 10);
      var s := Decimal(n);
      assert s[..|s| - 1] == Decimal(n / 10);
    }
  }

  /** `result_${Date.now()}.png` */
  function ScreenshotPath(now: nat): string {
    "result_" + Decimal(now) + ".png"
  }

  /** Screenshots taken at different times get different names. */
  lemma ScreenshotPathsDistinct(a: nat, b: nat)
    ensures ScreenshotPath(a) == ScreenshotPath(b) ==> a == b
  {
    if ScreenshotPath(a) == ScreenshotPath(b) {
      var da, db := Decimal(a), Decimal(b);
      assert |da| == |db|;
      assert da == ScreenshotPath(a)[7..7 + |da|];
      assert db == ScreenshotPath(b)[7..7 + |db|];
      DecimalRoundTrip(a);
      DecimalRoundTrip(b);
    }
  }

  /** A screenshot's name holds no directory separator, so `path.basename`
      leaves it as it is. */
  lemma ScreenshotPathPlain(now: nat)
    ensures '/' !in ScreenshotPath(now)
  {
    var p := ScreenshotPath(now);
    var d := Decimal(now);
    forall i | 0 <= i < |p| ensures p[i] != '/' {
      if 7 <= i < 7 + |d| {
        assert p[i] == d[i - 7];
      }
    }
  }

  /** What `data` is: the inner HTML of `.result`, or NoResultText when the
      page has no such element. */
  function ResultData(html: Option<string>): string {
    if html.Some? then html.value else NoResultText
  }

  /** The form filling after the captcha, when nothing throws. */
  function FormPlan(plate: string, sticker: string, path: string): seq<Action> {
    [Click(PlateBox), Type(PlateBox, plate), Click(StickerBox), Type(StickerBox, sticker),
     SubmitForm, Screenshot(path), ReadResult]
  }

  function FormRun(o: Oracle, plate: string, sticker: string): Run<LookupRecord> {
    var path := ScreenshotPath(o.now);
    RunPlan(o, FormPlan(plate, sticker, path), LookupRecord(true, ResultData(o.resultHtml), path))
  }

  /** The body of the try block. */
  function TryRun(o: Oracle, plate: string, sticker: string): Run<LookupRecord> {
    Step(o, Navigate, Then(CaptchaRun(o), FormRun(o, plate, sticker)))
  }

  /** The whole of `performVehicleLookup`. */
  function LookupRun(o: Oracle, plate: string, sticker: string): Run<LookupRecord> {
    Step(o, LaunchBrowser, Step(o, OpenPage, Finally(o, TryRun(o, plate, sticker))))
  }

  /** The try block's run, case by case: a throw from the navigation or
      from the captcha handler ends it; otherwise the form filling follows. */
  lemma TryCases(o: Oracle, plate: string, sticker: string)
    ensures var t := TryRun(o, plate, sticker); var c := CaptchaRun(o); var f := FormRun(o, plate, sticker);
      && (Navigate in o.faults ==> t == Run(Failure(Thrown(Navigate, o.faults[Navigate])), [Navigate]))
      && (Navigate !in o.faults && c.result.Failure? ==>
            t.result == Failure(c.result.error) && t.steps == [Navigate] + c.steps)
      && (Navigate !in o.faults && c.result.Success? ==>
            t.result == f.result && t.steps == [Navigate] + (c.steps + f.steps))
  {
  }

  /** The try block stops at the first action that throws and rethrows
      what it threw. */
  lemma TryStopsAtFault(o: Oracle, plate: string, sticker: string)
    ensures StopsAtFault(o, TryRun(o, plate, sticker))
  {
    var path := ScreenshotPath(o.now);
    CaptchaStopsAtFault(o);
    RunPlanFollows(o, FormPlan(plate, sticker, path), LookupRecord(true, ResultData(o.resultHtml), path));
    ThenStops(o, CaptchaRun(o), FormRun(o, plate, sticker));
    StepStops(o, Navigate, Then(CaptchaRun(o), FormRun(o, plate, sticker)));
  }

  lemma FormTailOrdered(sticker: string, path: string)
    ensures Ordered([Type(StickerBox, sticker), SubmitForm, Screenshot(path), ReadResult], 5, 8)
  {
    var s6: seq<Action> := [ReadResult];
    ConsOrdered(Screenshot(path), s6, 8, 8);
    ConsOrdered(SubmitForm, [Screenshot(path)] + s6, 7, 8);
    ConsOrdered(Type(StickerBox, sticker), [SubmitForm] + ([Screenshot(path)] + s6), 6, 8);
    assert [Type(StickerBox, sticker), SubmitForm, Screenshot(path), ReadResult] ==
      [Type(StickerBox, sticker)] + ([SubmitForm] + ([Screenshot(path)] + s6));
  }

  lemma FormPlanOrdered(plate: string, sticker: string, path: string)
    ensures Ordered(FormPlan(plate, sticker, path), 4, 8)
  {
    var s3: seq<Action> := [Type(StickerBox, sticker), SubmitForm, Screenshot(path), ReadResult];
    FormTailOrdered(sticker, path);
    ConsOrdered(Click(StickerBox), s3, 5, 8);
    ConsOrdered(Type(PlateBox, plate), [Click(StickerBox)] + s3, 5, 8);
    ConsOrdered(Click(PlateBox), [Type(PlateBox, plate)] + ([Click(StickerBox)] + s3), 4, 8);
    assert FormPlan(plate, sticker, path) == [Click(PlateBox)] + ([Type(PlateBox, plate)] + ([Click(StickerBox)] + s3));
  }

  /** The form filling runs in the form's order, as far as it gets. */
  lemma FormRunOrdered(o: Oracle, plate: string, sticker: string)
    ensures Ordered(FormRun(o, plate, sticker).steps, 4, 8)
  {
    var path := ScreenshotPath(o.now);
    var plan := FormPlan(plate, sticker, path);
    var f := FormRun(o, plate, sticker);
    RunPlanFollows(o, plan, LookupRecord(true, ResultData(o.resultHtml), path));
    FormPlanOrdered(plate, sticker, path);
    PrefixOrdered(plan, |f.steps|, 4, 8);
  }

  /** The try block navigates, solves the captcha, then fills and submits the
      form, screenshots and reads the result, in that order. */
  lemma TryOrdered(o: Oracle, plate: string, sticker: string)
    ensures Ordered(TryRun(o, plate, sticker).steps, 2, 8)
  {
    var f := FormRun(o, plate, sticker);
    CaptchaInPhase(o);
    FormRunOrdered(o, plate, sticker);
    ThenOrdered(CaptchaRun(o), f, 3, 3, 8);
    StepOrdered(o, Navigate, Then(CaptchaRun(o), f), 3, 8);
  }

  /** Actions after the last one that throws do not run: when the try
      block fails, what follows it is the close in `finally` and nothing
      else; when it returns, it has done all of the form filling and returns
      `success: true`, the screenshot's name and the `.result` HTML or
      NoResultText. */
  lemma TryOutcome(o: Oracle, plate: string, sticker: string)
    ensures var t := TryRun(o, plate, sticker); var path := ScreenshotPath(o.now);
      t.result.Success? ==>
        && t.steps == [Navigate] + CaptchaRun(o).steps + FormPlan(plate, sticker, path)
        && t.result.value == LookupRecord(true, ResultData(o.resultHtml), path)
  {
    var path := ScreenshotPath(o.now);
    var plan := FormPlan(plate, sticker, path);
    TryCases(o, plate, sticker);
    RunPlanFollows(o, plan, LookupRecord(true, ResultData(o.resultHtml), path));
    if TryRun(o, plate, sticker).result.Success? {
      AppendAssoc([Navigate], CaptchaRun(o).steps, plan);
    }
  }

  /** Once the browser is open, `finally` closes it exactly once, as the
      very last action; when launching or opening the page throws, close
      is never called. */
  lemma BrowserClosedOnceLast(o: Oracle, plate: string, sticker: string)
    ensures var r := LookupRun(o, plate, sticker);
      && (LaunchBrowser !in o.faults && OpenPage !in o.faults ==>
            && r.steps == [LaunchBrowser, OpenPage] + TryRun(o, plate, sticker).steps + [CloseBrowser]
            && Last(r.steps) == CloseBrowser
            && multiset(r.steps)[CloseBrowser] == 1)
      && (LaunchBrowser in o.faults || OpenPage in o.faults ==> CloseBrowser !in r.steps)
  {
    var t := TryRun(o, plate, sticker);
    TryOrdered(o, plate, sticker);
    OutsideOrdered(t.steps, 2, 8, CloseBrowser);
    OpenedClosesOnceLast(o, t);
  }

  /** The lookup's actions keep the program's order: launch, open the page,
      navigate, the captcha, the plate, the sticker number, submit,
      screenshot, read the result, close. */
  lemma LookupOrdered(o: Oracle, plate: string, sticker: string)
    ensures Ordered(LookupRun(o, plate, sticker).steps, 0, 9)
  {
    var t := TryRun(o, plate, sticker);
    TryOrdered(o, plate, sticker);
    AppendOrdered(t.steps, [CloseBrowser], 2, 9, 9);
    StepOrdered(o, OpenPage, Finally(o, t), 2, 9);
    StepOrdered(o, LaunchBrowser, Step(o, OpenPage, Finally(o, t)), 1, 9);
  }

  /** The lookup as a whole stops at the first action that throws and
      rethrows its error unchanged. A throw from launching or opening the
      page ends it there. Otherwise the close in `finally` is the last
      action; up to the close, every action but the last completed, and a
      throwing last action is rethrown unchanged. A throwing close instead
      makes its own error the outcome. When no action threw, the lookup
      returns the record or fails with one of the captcha handler's own
      errors (image not found, bad download status, missing key). */
  lemma LookupStopsAtFault(o: Oracle, plate: string, sticker: string)
    ensures var r := LookupRun(o, plate, sticker);
      && (LaunchBrowser in o.faults || OpenPage in o.faults ==> StopsAtFault(o, r))
      && (LaunchBrowser !in o.faults && OpenPage !in o.faults ==>
            && r.steps != [] && Last(r.steps) == CloseBrowser
            && (CloseBrowser !in o.faults ==> StopsAtFault(o, Run(r.result, r.steps[..|r.steps| - 1])))
            && (CloseBrowser in o.faults ==>
                  r.result == Failure(Thrown(CloseBrowser, o.faults[CloseBrowser]))))
    ensures var r := LookupRun(o, plate, sticker);
      (forall k :: 0 <= k < |r.steps| ==> r.steps[k] !in o.faults) ==>
        r.result.Success? || !r.result.error.Thrown?
  {
    var t := TryRun(o, plate, sticker);
    TryStopsAtFault(o, plate, sticker);
    TryOrdered(o, plate, sticker);
    OutsideOrdered(t.steps, 2, 8, CloseBrowser);
    OpenedFinallyStops(o, t);
  }

  /** A lookup that succeeds went through every step, in order, and returns
      `success: true`, the screenshot's name and the `.result` HTML or
      NoResultText. */
  lemma LookupSuccess(o: Oracle, plate: string, sticker: string)
    ensures var r := LookupRun(o, plate, sticker); var path := ScreenshotPath(o.now);
      r.result.Success? ==>
        && r.steps == [LaunchBrowser, OpenPage, Navigate] + CaptchaRun(o).steps +
                      FormPlan(plate, sticker, path) + [CloseBrowser]
        && r.result.value == LookupRecord(true, ResultData(o.resultHtml), path)
        && r.result.value.success
  {
    var t := TryRun(o, plate, sticker);
    var r := LookupRun(o, plate, sticker);
    TryOutcome(o, plate, sticker);
    if r.result.Success? {
      var path := ScreenshotPath(o.now);
      assert r.steps == [LaunchBrowser] + ([OpenPage] + (t.steps + [CloseBrowser]));
      assert t.steps == [Navigate] + CaptchaRun(o).steps + FormPlan(plate, sticker, path);
    }
  }

  /** When nothing throws, the first probe finds the captcha image, the
      download succeeds and the API key is set, the lookup succeeds. */
  lemma LookupSucceedsWhenNothingFails(o: Oracle, plate: string, sticker: string)
    requires o.faults == map[]
    requires IsHit(CaptchaSrc(o, 0)) && o.imageResponse.ok && HasApiKey(o.apiKey)
    ensures LookupRun(o, plate, sticker).result ==
      Success(LookupRecord(true, ResultData(o.resultHtml), ScreenshotPath(o.now)))
  {
    var path := ScreenshotPath(o.now);
    CaptchaSucceedsWhenNothingFails(o);
    RunPlanSucceeds(o, FormPlan(plate, sticker, path), LookupRecord(true, ResultData(o.resultHtml), path));
  }

  /** The try block after the captcha, as written: fill in the plate and
      the sticker number, submit the form, take the screenshot and read the
      result. */
  method FillLookupForm(h: Host, plate: string, sticker: string) returns (r: Result<LookupRecord, Error>)
    modifies h`log
    ensures h.log == old(h.log) + FormRun(h.oracle, plate, sticker).steps
    ensures r == FormRun(h.oracle, plate, sticker).result
  {
    ghost var o := h.oracle;
    ghost var start := h.log;
    ghost var total := FormRun(o, plate, sticker);
    // the part of the run still to come, and the log before its next step
    ghost var rest := total;
    ghost var log := h.log;
    FormRunUnfolded(o, plate, sticker);
    var screenshotPath := ScreenshotPath(h.oracle.now);
    :- h.Perform(Click(PlateBox));
    rest, log := Resume(start, total, log, rest), h.log;
    :- h.Perform(Type(PlateBox, plate));
    rest, log := Resume(start, total, log, rest), h.log;
    :- h.Perform(Click(StickerBox));
    rest, log := Resume(start, total, log, rest), h.log;
    :- h.Perform(Type(StickerBox, sticker));
    rest, log := Resume(start, total, log, rest), h.log;
    :- h.Perform(SubmitForm);
    rest, log := Resume(start, total, log, rest), h.log;
    :- h.Perform(Screenshot(screenshotPath));
    rest, log := Resume(start, total, log, rest), h.log;
    var result :- h.QueryResult();
    rest, log := Resume(start, total, log, rest), h.log;
    var data := if result.Some? then result.value else NoResultText;
    return Success(LookupRecord(true, data, screenshotPath));
  }

  /** The try block, as written: navigate, handle the captcha, then the form. */
  method TryLookup(h: Host, plate: string, sticker: string) returns (r: Result<LookupRecord, Error>)
    modifies h`log
    ensures h.log == old(h.log) + TryRun(h.oracle, plate, sticker).steps
    ensures r == TryRun(h.oracle, plate, sticker).result
  {
    ghost var start := h.log;
    TryCases(h.oracle, plate, sticker);
    :- h.Perform(Navigate);
    var _ :- HandleCaptcha(h);
    r := FillLookupForm(h, plate, sticker);
    AppendAssoc(start, [Navigate], CaptchaRun(h.oracle).steps);
    AppendAssoc(start + [Navigate], CaptchaRun(h.oracle).steps, FormRun(h.oracle, plate, sticker).steps);
    AppendAssoc(start, [Navigate], CaptchaRun(h.oracle).steps + FormRun(h.oracle, plate, sticker).steps);
  }

  lemma FormRunUnfolded(o: Oracle, plate: string, sticker: string)
    ensures var path := ScreenshotPath(o.now); var rec := LookupRecord(true, ResultData(o.resultHtml), path);
      FormRun(o, plate, sticker) ==
        Step(o, Click(PlateBox), Step(o, Type(PlateBox, plate), Step(o, Click(StickerBox),
        Step(o, Type(StickerBox, sticker), Step(o, SubmitForm, Step(o, Screenshot(path),
        Step(o, ReadResult, Done(rec))))))))
  {
    var path := ScreenshotPath(o.now);
    var rec := LookupRecord(true, ResultData(o.resultHtml), path);
    var p0 := FormPlan(plate, sticker, path);
    var p1 := p0[1..];
    var p2 := p1[1..];
    var p3 := p2[1..];
    var p4 := p3[1..];
    var p5 := p4[1..];
    var p6 := p5[1..];
    assert p6 == [ReadResult] && p6[1..] == [];
    assert RunPlan(o, p6, rec) == Step(o, ReadResult, Done(rec));
    assert RunPlan(o, p5, rec) == Step(o, Screenshot(path), RunPlan(o, p6, rec));
    assert RunPlan(o, p4, rec) == Step(o, SubmitForm, RunPlan(o, p5, rec));
    assert RunPlan(o, p3, rec) == Step(o, Type(StickerBox, sticker), RunPlan(o, p4, rec));
    assert RunPlan(o, p2, rec) == Step(o, Click(StickerBox), RunPlan(o, p3, rec));
    assert RunPlan(o, p1, rec) == Step(o, Type(PlateBox, plate), RunPlan(o, p2, rec));
  }

  /** `performVehicleLookup`, as written. Besides the run, it states what
      happens to the browser: it is left open exactly when it was launched
      and then opening the page, or closing it, threw. */
  method PerformVehicleLookup(h: Host, plate: string, sticker: string) returns (r: Result<LookupRecord, Error>)
    modifies h`log, h`openBrowsers
    ensures h.log == old(h.log) + LookupRun(h.oracle, plate, sticker).steps
    ensures r == LookupRun(h.oracle, plate, sticker).result
    ensures h.openBrowsers == old(h.openBrowsers) +
      (if LaunchBrowser !in h.oracle.faults && (OpenPage in h.oracle.faults || CloseBrowser in h.oracle.faults)
       then 1 else 0)
  {
    ghost var start := h.log;
    OpenedFinallyCases(h.oracle, TryRun(h.oracle, plate, sticker));
    :- h.Launch();
    :- h.Perform(OpenPage);
    var outcome := TryLookup(h, plate, sticker);
    var closed := h.Close();
    AppendLaunched(start, TryRun(h.oracle, plate, sticker).steps);
    if closed.Fail? {
      return closed.PropagateFailure();
    }
    return outcome;
  }
}

=== FILE: sanitizer.dfy ===
/** The clean-up applied to the recognition model's reply before it is typed
    into the captcha box: `recognizedText.replace(/[^A-Za-z0-9]/g, '')`.
    Every character outside the ASCII letters and digits is dropped; the
    rest are kept, in order. */
module Sanitizer {

  predicate IsAsciiAlnum(c: char) {
    ('A' <= c <= 'Z') || ('a' <= c <= 'z') || ('0' <= c <= '9')
  }

  predicate AllAsciiAlnum(s: string) {
    forall i :: 0 <= i < |s| ==> IsAsciiAlnum(s[i])
  }

  /** `a` can be obtained from `b` by deleting characters. */
  predicate IsSubsequence(a: string, b: string)
    decreases |b|
  {
    a == [] ||
    (b != [] && ((a[0] == b[0] && IsSubsequence(a[1..], b[1..])) || IsSubsequence(a, b[1..])))
  }

  /** The reply with every character that the regular expression
      `[^A-Za-z0-9]` matches replaced by the empty string. */
  function Sanitize(s: string): (r: string)
    ensures |r| <= |s|
    ensures AllAsciiAlnum(r)
  {
    if s == [] then []
    else (if IsAsciiAlnum(s[0]) then [s[0]] else []) + Sanitize(s[1..])
  }

  /** Sanitising works character by character, so it distributes over
      concatenation. */
  lemma {:induction false} SanitizeAppend(a: string, b: string)
    ensures Sanitize(a + b) == Sanitize(a) + Sanitize(b)
  {
    if a == [] {
      assert a + b == b;
    } else {
      assert (a + b)[0] == a[0];
      assert (a + b)[1..] == a[1..] + b;
      SanitizeAppend(a[1..], b);
    }
  }

  /** A text is left unchanged exactly when it is made of ASCII letters and
      digits only. */
  lemma {:induction false} SanitizeFixedPoints(s: string)
    ensures Sanitize(s) == s <==> AllAsciiAlnum(s)
  {
    if s != [] && AllAsciiAlnum(s) {
      assert AllAsciiAlnum(s[1..]) by {
        forall i | 0 <= i < |s[1..]| ensures IsAsciiAlnum(s[1..][i]) {
          assert s[1..][i] == s[i + 1];
        }
      }
      SanitizeFixedPoints(s[1..]);
      assert IsAsciiAlnum(s[0]);
      assert s == [s[0]] + s[1..];
    }
  }

  /** Sanitising twice is the same as sanitising once. */
  lemma SanitizeIdempotent(s: string)
    ensures Sanitize(Sanitize(s)) == Sanitize(s)
  {
    SanitizeFixedPoints(Sanitize(s));
  }

  /** No ASCII letter or digit of the reply is lost, none is added, and no
      other character survives: the output holds each ASCII letter and digit
      exactly as often as the reply does, and nothing else. */
  lemma {:induction false} SanitizeKeepsAlnum(s: string)
    ensures forall c :: multiset(Sanitize(s))[c] == if IsAsciiAlnum(c) then multiset(s)[c] else 0
  {
    if s != [] {
      SanitizeKeepsAlnum(s[1..]);
      assert s == [s[0]] + s[1..];
      assert multiset(s) == multiset{s[0]} + multiset(s[1..]);
    }
  }

  /** The output keeps the reply's characters in their original order. */
  lemma {:induction false} SanitizeIsSubsequence(s: string)
    ensures IsSubsequence(Sanitize(s), s)
  {
    if s != [] {
      SanitizeIsSubsequence(s[1..]);
      var r := Sanitize(s);
      if IsAsciiAlnum(s[0]) {
        assert r == [s[0]] + Sanitize(s[1..]);
        assert r[0] == s[0] && r[1..] == Sanitize(s[1..]);
      } else {
        assert r == Sanitize(s[1..]);
        assert r == [] || IsSubsequence(r, s[1..]);
      }
    }
  }

  /** An order-preserving selection of ASCII letters and digits from a text
      is never longer than the sanitised text. */
  lemma {:induction false} AlnumSubsequenceBound(r: string, s: string)
    requires IsSubsequence(r, s) && AllAsciiAlnum(r)
    ensures |r| <= |Sanitize(s)|
    decreases |s|
  {
    if r != [] {
      assert AllAsciiAlnum(r[1..]) by {
        forall i | 0 <= i < |r[1..]| ensures IsAsciiAlnum(r[1..][i]) {
          assert r[1..][i] == r[i + 1];
        }
      }
      if r[0] == s[0] && IsSubsequence(r[1..], s[1..]) {
        AlnumSubsequenceBound(r[1..], s[1..]);
        assert IsAsciiAlnum(s[0]);
      } else {
        AlnumSubsequenceBound(r, s[1..]);
      }
    }
  }

  /** Reference characterisation: the sanitised text is the one and only
      longest subsequence of the reply made of ASCII letters and digits. */
  lemma {:induction false} SanitizeIsLongestAlnumSubsequence(s: string, r: string)
    requires IsSubsequence(r, s) && AllAsciiAlnum(r)
    requires |r| >= |Sanitize(s)|
    ensures r == Sanitize(s)
    decreases |s|
  {
    if r == [] {
    } else {
      assert AllAsciiAlnum(r[1..]) by {
        forall i | 0 <= i < |r[1..]| ensures IsAsciiAlnum(r[1..][i]) {
          assert r[1..][i] == r[i + 1];
        }
      }
      if r[0] == s[0] && IsSubsequence(r[1..], s[1..]) {
        assert IsAsciiAlnum(s[0]);
        SanitizeIsLongestAlnumSubsequence(s[1..], r[1..]);
        assert r == [r[0]] + r[1..];
      } else {
        // when s[0] is kept, r misses it and is too short to match
        AlnumSubsequenceBound(r, s[1..]);
        if !IsAsciiAlnum(s[0]) {
          SanitizeIsLongestAlnumSubsequence(s[1..], r);
        }
      }
    }
  }
}

=== FILE: wrappers.dfy ===
/** Option, Result and Outcome: the values a JavaScript step yields, or the
    exception it throws. Result and Outcome are failure-compatible, so a
    method can propagate a thrown error with `:-`, as an `await` does. */
module Wrappers {

  datatype Option<+T> = None | Some(value: T)

  datatype Result<+T, +E> = Success(value: T) | Failure(error: E) {

    predicate IsFailure() {
      Failure?
    }

    function PropagateFailure<U>(): Result<U, E>
      requires Failure?
    {
      Failure(error)
    }

    function Extract(): T
      requires Success?
    {
      value
    }
  }

  /** The outcome of a step that yields no value. */
  datatype Outcome<+E> = Pass | Fail(error: E) {

    predicate IsFailure() {
      Fail?
    }

    function PropagateFailure<U>(): Result<U, E>
      requires Fail?
    {
      Failure(error)
    }
  }
}
